=== FILE: README.md ===
# BlogSystem: a verified model of the post pipeline and the hash router

`BlogSystem` (js/main.js) is a client-side blog viewer. It fetches a fixed list of
markdown files, splits each into a frontmatter block and a markdown body, parses the
frontmatter into a dictionary, and builds a post record with defaults for missing
fields. It then sorts the posts newest first, filters them with a search box, and
shows one post at a time under a `#/<id>` location hash.

This project models that core in Dafny:

- `text.dfy`: the JavaScript string operations the code relies on.
  - Module `Text` covers `trim`, `split` on one character, `indexOf`, `includes`, `replace` of a literal (first occurrence only) and `toLowerCase`.
  - It also defines order-preserving subsequences.
  - Module `Optional` defines the option type.
- `frontmatter.dfy`: `parseFrontmatter`.
  - A method with the source's loop, proved equal to a function on the line list.
  - A frontmatter value is `Str(s)` or `List(items)`.
  - A writer for frontmatter blocks, with the proof that the parser reads back what it wrote.
- `excerpt.dfy`: `generateExcerpt`.
  - Each of the six regular-expression passes is a scan with the same lazy-match and line-terminator rules, applied in the source's order.
  - Then trimming, the first paragraph and truncation to 150 characters plus `...`.
- `posts.dfy`: `parseMarkdownPost`.
  - The pattern `^---\s*\n([\s\S]*?)\n---\s*\n([\s\S]*)$` with its backtracking order: the greedy `\s*` gives back newlines last-first, and the lazy group takes the first closing delimiter.
  - The id derivation and the field defaults.
- `store.dfy`: the `loadPosts` pipeline and `filterPosts`.
  - `loadPosts`: the files are parsed in order, then a stable newest-first insertion sort runs.
  - `filterPosts`: the six-field search, including the `TypeError` the search throws on a list-valued field.
- `router.dfy`: `handleRouteChange`, `openPost` and `showHomePage` as transitions of the pair (location hash, post on show).
- `blog.dfy`: class `BlogSystem`.
  - Its fields are `posts`, `filteredPosts`, `currentPost` and the location hash.
  - Its methods update them as the source does, each proved against the functions above.

Where the code behaves in ways a reader might not expect, the model follows the code:

- **`.md` removal.** The id drops the first `.md` anywhere in the file name, not a suffix (`Text.RemoveFirst`).
- **Ids can collide.** Distinct file names give the same id (`Posts.IdsCanCollide`: `a_b.md` and `a-b.md`), so the model claims no id uniqueness.
- **Opening line.** It must be exactly `---` followed by white space. A line of four dashes does not open a block (`Posts.FourDashesDoNotOpen`).
- **Order of the excerpt passes.** Fenced code is removed last, after inline code.
  - The inline-code pass has already turned a fence "```" into a single backtick by then.
  - A fenced block therefore survives as text (`Excerpt.FenceSurvivesInlineCodePass`).
- **Heading text is kept.** The header pass removes only the `#` marks, so `# Title` followed by a blank line gives the excerpt `Title` (`Excerpt.HeadingTextIsExcerpt`).
- **Tag matching.** Tags match by substring, like every other field.
- **List-valued fields.** A list-valued title makes every non-empty search throw. A list-valued excerpt, category or author makes it throw when every field searched before it misses the query (`Store.SearchThrowsIff`). `filteredPosts` then keeps its old value; the empty query never searches.

## Model

| member | source | states |
|---|---|---|
| Text.Trim | js/main.js:180 | the result has no white space at either end, is no longer than the input, and an already trimmed string is unchanged |
| Text.TrimIsInfix | js/main.js:180 | the trimmed string is a contiguous piece of the input with only white space cut from each side |
| Text.Split | js/main.js:177 | `split("\n")` gives one part more than there are separators, and no part holds a separator |
| Text.JoinSplit | js/main.js:177 | joining the parts of a split with the separator gives back the original text |
| Text.SplitJoin | js/main.js:177 | splitting a join of separator-free parts gives back the parts |
| Text.IndexOf | js/main.js:183 | `indexOf(":")` is -1 exactly when there is no colon, and otherwise the position of the first colon |
| Text.Find | js/main.js:226 | the first position at which a pattern occurs, or none when it occurs nowhere (`includes`) |
| Text.RemoveFirst | js/main.js:155 | `replace(".md", "")` cuts exactly the first occurrence, and nothing when there is none |
| Text.LowerChar | js/main.js:157 | an ASCII capital becomes its own lower-case letter (code point plus 32), and every other character is kept |
| Text.Lower | js/main.js:157 | lower-casing keeps the length and maps every character on its own |
| Frontmatter.ParseValue | js/main.js:189-195 | a value becomes a list exactly when it starts with `[` and ends with `]`; a list has one trimmed, comma-free item more than the commas between the brackets; any other value is kept as it is |
| Frontmatter.ParseItems | js/main.js:191-194 | one item more than the commas between the brackets, each trimmed and comma-free |
| Frontmatter.ParseItemsArePieces | js/main.js:191-194 | the items of comma-joined pieces are exactly those pieces, each trimmed |
| Frontmatter.ParseBracketedValue | js/main.js:189-195 | a bracketed value is the list of its comma-separated pieces, each trimmed |
| Frontmatter.TagListExample | js/main.js:189-195 | `[go, rust]` gives the list `go`, `rust` |
| Frontmatter.ParseLine | js/main.js:180-187 | a line is skipped exactly when its trimmed text has no colon; a key never holds a colon and is trimmed |
| Frontmatter.ParseLineSplitsAtFirstColon | js/main.js:183-187 | the key is the trimmed text before the first colon, and the value is parsed from the trimmed text after it |
| Frontmatter.ParseLines | js/main.js:177-179 | each line of the block is parsed on its own, in order |
| Frontmatter.Record | js/main.js:197 | one assignment binds the key the line defines to its value and keeps every other binding |
| Frontmatter.Collect | js/main.js:176-198 | the dictionary built line by line never holds `__proto__` as a key |
| Frontmatter.FrontmatterOf | js/main.js:175-201 | the dictionary of a block never holds `__proto__` as a key |
| Frontmatter.FrontmatterKeys | js/main.js:183-186 | every key of the dictionary is trimmed and colon-free |
| Frontmatter.ParseFrontmatter | js/main.js:175-201 | the loop that records each line into an empty dictionary computes the frontmatter of the block |
| Frontmatter.KeyPresentIffDefined | js/main.js:179-198 | a key is in the dictionary exactly when some line defines it |
| Frontmatter.DefinedIsPresent | js/main.js:197 | a key that some line defines is in the dictionary |
| Frontmatter.PresentIsDefined | js/main.js:197 | every key in the dictionary comes from a line that defines it |
| Frontmatter.LastDefinitionWins | js/main.js:197 | the value of a key is the one on the last line that defines it |
| Frontmatter.ParseRenderValue | js/main.js:189-195 | a written value (a string, or a bracketed comma-joined list) parses back to itself |
| Frontmatter.ParseRenderLine | js/main.js:180-197 | a written `key:value` line parses back to its entry |
| Frontmatter.ParseRenderedLines | js/main.js:177-197 | the lines of a written block parse back to its entries, one per line |
| Frontmatter.ParseRenderedBlock | js/main.js:175-201 | in a written block, each key is mapped to the value of its last entry |
| Frontmatter.ParseRenderedBlockKeys | js/main.js:175-201 | the keys of a written block's dictionary are exactly the keys of its entries |
| Excerpt.HeaderAt | js/main.js:206 | a header match starts at a `#` and lies within the text |
| Excerpt.StripHeaders | js/main.js:206 | removing `#{1,6}\s+` never lengthens the text and changes nothing without `#` |
| Excerpt.LazyClose | js/main.js:207-209 | the lazy `(.*?)` ends at the first occurrence of the closing marker, with no line terminator before it; there is no match exactly when every occurrence lies beyond a line terminator |
| Excerpt.PairAt | js/main.js:207-209 | a `D(.*?)D` match: the text opens with the whole delimiter, the closing delimiter sits right after the `r` characters between them, those characters hold no line terminator and no earlier delimiter, and the match fits within the text |
| Excerpt.StripPairs | js/main.js:207-209 | removing the bold, italic and inline-code markers never lengthens the text and changes nothing without the marker character |
| Excerpt.LinkAt | js/main.js:210 | a link match starts at `[` and has non-empty text and a non-empty target |
| Excerpt.StripLinks | js/main.js:210 | replacing links by their text never lengthens the text and changes nothing without `[` |
| Excerpt.StripFences | js/main.js:211 | removing fenced blocks never lengthens the text and changes nothing without a backtick |
| Excerpt.StripHeadersDeletes | js/main.js:206 | the header pass only deletes characters |
| Excerpt.StripPairsDeletes | js/main.js:207-209 | each marker pass only deletes characters |
| Excerpt.StripLinksDeletes | js/main.js:210 | the link pass only deletes characters |
| Excerpt.StripFencesDeletes | js/main.js:211 | the fence pass only deletes characters |
| Excerpt.StripMarkdown | js/main.js:205-211 | the six passes never lengthen the text and leave text without markdown characters unchanged |
| Excerpt.StripMarkdownDeletes | js/main.js:205-211 | the text after all six passes is a subsequence of the body |
| Excerpt.StripSkipsPlainPrefix | js/main.js:205-211 | a prefix without markdown characters passes through the six passes untouched |
| Excerpt.PlainText | js/main.js:205-212 | the stripped text is trimmed and no longer than the body, and a body without markdown characters is only trimmed |
| Excerpt.PlainTextDrawnFromBody | js/main.js:205-212 | the stripped and trimmed text is a subsequence of the body |
| Excerpt.FirstParagraph | js/main.js:214 | the first paragraph is the prefix before the first blank-line break, or the whole text when there is none |
| Excerpt.Truncate | js/main.js:215-217 | up to 150 characters are kept as they are; a longer paragraph becomes its first 150 characters followed by `...` |
| Excerpt.GenerateExcerpt | js/main.js:203-218 | an excerpt is at most 153 characters long |
| Excerpt.ExcerptDrawnFromBody | js/main.js:203-218 | the excerpt, without the ellipsis, is a subsequence of the body |
| Excerpt.PlainParagraphIsExcerpt | js/main.js:203-218 | a plain first paragraph of at most 150 characters is itself the excerpt |
| Excerpt.TrimAfterPlainStart | js/main.js:212-214 | trimming does not move the first paragraph break after a plain first line |
| Excerpt.HeadingTextIsExcerpt | js/main.js:206-217 | `# Title` followed by a blank line gives the excerpt `Title` |
| Excerpt.InlineCodeOnFence | js/main.js:209 | the inline-code pass turns a fence "```…```" spanning lines into single backticks around the same text |
| Excerpt.FencesOnSingleTicks | js/main.js:211 | the fence pass leaves single backticks around text alone |
| Excerpt.FenceSurvivesInlineCodePass | js/main.js:209-211 | a fenced block is not removed: it comes out of the six passes with single backticks |
| Posts.RunEnd | js/main.js:142 | the white-space run after the opening dashes ends within the text |
| Posts.RunEndIsRun | js/main.js:142 | that run is all white space and stops at the first other character |
| Posts.LastNewline | js/main.js:142 | `\s*\n` at the closing line ends at the last newline of the white-space run |
| Posts.CloseAt | js/main.js:142 | a closing match needs `\n---` at the position and ends just after a newline |
| Posts.CloseAtRun | js/main.js:142 | a closing line matches exactly when its white-space run holds a newline, and the match ends at that run's last newline |
| Posts.FirstClose | js/main.js:142 | the lazy frontmatter group ends at a position where the closing line matches |
| Posts.FirstCloseIsFirst | js/main.js:142 | no earlier position closes the group |
| Posts.Attempts | js/main.js:142 | for each newline the greedy opening `\s*` can give back, whether the rest of the pattern matches from there |
| Posts.LastSet | js/main.js:142 | the backtracking search picks a position where the rest matches |
| Posts.LastSetIsLast | js/main.js:142 | positions are tried last-first: no later position in the run would match |
| Posts.MatchFrontmatter | js/main.js:142-148 | a match needs the opening dashes and splits the content into an ordered frontmatter and body |
| Posts.MatchTriesLastFirst | js/main.js:142 | the match takes the last newline of the opening run that lets the pattern succeed, and no match means none does |
| Posts.MatchFrontmatterShape | js/main.js:142 | a match has white space and a newline after the opening dashes, a closing `\n---` line with white space up to a newline, and no earlier closing line inside the group |
| Posts.FourDashesDoNotOpen | js/main.js:142 | content starting with four dashes has no frontmatter |
| Posts.SplitFrontmatter | js/main.js:142-150 | the split exists exactly when the pattern matches; the frontmatter and body together are at least nine characters shorter than the content, and the body is its tail |
| Posts.SplitWritten | js/main.js:142-150 | `---`, a block free of dash lines, `---` and a body that does not start with white space split back into that block and body |
| Posts.Hyphenate | js/main.js:156 | ASCII letters and digits are kept and every other character becomes `-` |
| Posts.DeriveId | js/main.js:154-157 | the id is as long as the file name with its first `.md` removed, and holds only `[a-z0-9-]` |
| Posts.NoExtensionToRemove | js/main.js:155 | a name without a dot has no `.md` to remove |
| Posts.DeriveIdIdempotent | js/main.js:154-157 | deriving an id from an id gives the same id |
| Posts.RemoveAppendedExtension | js/main.js:155 | a dot-free name with `.md` appended loses exactly that `.md` |
| Posts.DeriveIdOfIdFile | js/main.js:154-157 | the file `<id>.md` has the id `<id>` |
| Posts.SeparatorsCollide | js/main.js:156 | file names that differ only in which non-alphanumeric characters they use get the same id |
| Posts.IdsCanCollide | js/main.js:154-157 | `a_b.md` and `a-b.md` are different files with the same id |
| Posts.FieldOr | js/main.js:161 | `frontmatter[key] \|\| fallback` is the stored value when it is a list or a non-empty string, and the fallback otherwise |
| Posts.TagsOf | js/main.js:164 | tags are the parsed list when the `tags` value is a list, and empty otherwise |
| Posts.AssemblePost | js/main.js:159-168 | title, category and author are never empty, the content is trimmed and no longer than the body, and the id holds only `[a-z0-9-]` |
| Posts.ParseMarkdownPost | js/main.js:139-173 | a post is produced exactly when the pattern matches, and never when the content does not start with `---` |
| Posts.TagsAreItems | js/main.js:164 | every tag of a parsed post is trimmed and comma-free |
| Posts.TagsAreParsedItems | js/main.js:189-197 | every item of a list value in the dictionary is trimmed and comma-free |
| Posts.LastDefinition | js/main.js:197 | a defined key has a last defining line |
| Posts.JoinNoDashLine | js/main.js:142 | lines that do not start with `-` joined by newlines contain no `\n-` |
| Posts.RenderBlockNoDashLine | js/main.js:142 | a written frontmatter block contains no closing delimiter and does not start with white space |
| Posts.ParseWrittenPost | js/main.js:142-168 | a written post file parses to the post assembled from its block's dictionary and its body |
| Posts.WrittenTitleIsKept | js/main.js:161 | a non-empty title written in the frontmatter is the post's title |
| Posts.BlockTitle | js/main.js:161 | the title is the value of the last `title` entry of the block |
| Posts.WrittenTagsAreKept | js/main.js:164 | a tag list written in the frontmatter is the post's tag list |
| Posts.MissingFieldsDefault | js/main.js:159-168 | a post file with none of the six keys gets "Untitled", the generated excerpt, today's date, no tags, "Uncategorized" and "Anonymous", and its content is the trimmed body |
| Posts.BlockDefaults | js/main.js:159-168 | the post assembled from a block with none of the six keys has every default |
| Store.PostOf | js/main.js:115-122 | a file whose fetch failed gives no post |
| Store.Kept | js/main.js:113-126 | the loop pushes at most one result per element |
| Store.ParsedPosts | js/main.js:111-126 | the loop keeps at most one post per file |
| Store.ParsedPostsStep | js/main.js:113-126 | one round of the loop pushes the file's post when it parses and otherwise leaves the list as it was |
| Store.ParsedPostsAppend | js/main.js:113-126 | loading two lists of files one after the other gives the posts of the first followed by those of the second |
| Store.ParsedPostsAreTheParsedFiles | js/main.js:111-126 | a post is loaded exactly when some fetched file parses to it |
| Store.Insert | js/main.js:129 | inserting a post adds exactly that post |
| Store.SortNewestFirst | js/main.js:129 | sorting is a permutation |
| Store.InsertElements | js/main.js:129 | inserting brings in no other post |
| Store.InsertKeepsOrder | js/main.js:129 | inserting into a newest-first list keeps it newest first |
| Store.SortIsNewestFirst | js/main.js:129 | sorted posts are newest first |
| Store.WithKeyAppend | js/main.js:129 | picking the posts with one date distributes over concatenation |
| Store.InsertIsStable | js/main.js:129 | an inserted post goes after every post with the same date |
| Store.NoneWithKey | js/main.js:129 | no post is picked for a date that no post has |
| Store.SortIsStable | js/main.js:129 | posts with equal dates keep their load order |
| Store.LoadedPosts | js/main.js:111-130 | the loaded posts are a permutation of the parsed ones |
| Store.FieldHit | js/main.js:226 | lower-casing a field throws exactly when the field is a list |
| Store.AnyTagHit | js/main.js:229 | `tags.some(...)` holds exactly when some lower-cased tag contains the query |
| Store.OrElse | js/main.js:226-231 | `\|\|` stops at the first field that contains the query and throws where its left operand throws |
| Store.Matches | js/main.js:225-231 | a verdict of the search predicate is whether some field contains the query, and it throws only on a post with a list-valued field |
| Store.SearchThrowsIff | js/main.js:225-231 | the search throws exactly when it reaches a list-valued field: a list title always, a list excerpt, category or author when every field before it misses |
| Store.ListTitleThrows | js/main.js:226 | a post whose title is a list makes the search throw |
| Store.FilterBy | js/main.js:224-232 | a filter keeps no more elements than it is given |
| Store.FilterBySpec | js/main.js:224-232 | the filter throws exactly when the predicate throws on some element; otherwise it is an in-order subsequence that holds each accepted element as many times as the input and no other element |
| Store.FilterByCounts | js/main.js:224-232 | each accepted element is kept as many times as it occurs, and the others not at all |
| Store.FilterByIdempotent | js/main.js:224-232 | filtering a filtered list again changes nothing |
| Store.Filtered | js/main.js:220-233 | the empty query gives every post, and a result never has more posts than the store |
| Store.FilteredSpec | js/main.js:220-233 | a non-empty query throws exactly when some post makes the search throw; otherwise the result is an in-order subsequence of the posts holding every matching post as often as the store does and no other post |
| Store.FilteredIdempotent | js/main.js:220-233 | searching the results of a query for the same query gives the same results |
| Store.TitleHitIsKept | js/main.js:226 | a post whose title contains the query is in the results |
| Router.FindPost | js/main.js:38 | `posts.find` gives a loaded post with the id, or nothing exactly when no post has the id |
| Router.FindPostIsFirst | js/main.js:313 | the post found is the first with the id |
| Router.PostHash | js/main.js:320 | the hash of a post is `#/` followed by its id |
| Router.ShowHome | js/main.js:378-395 | going home leaves an empty hash and no post on show |
| Router.OpenPost | js/main.js:312-321 | an unknown id changes nothing; otherwise the post is on show and the hash names it exactly when asked |
| Router.RouteId | js/main.js:36-37 | a hash names a post id exactly when it starts with `#/`, and the id is the rest of the hash |
| Router.RouteChange | js/main.js:33-50 | the handler never writes a post's hash; a `#/<id>` naming a post shows it, and anything else goes home |
| Router.RouteChangeIdempotent | js/main.js:33-50 | a second run of the handler on the state it left changes nothing, so hash events do not loop |
| Router.OpenThenRouteChange | js/main.js:319-320 | after `openPost(id, true)` the hashchange handler keeps the same post on show and the hash afterwards is still `#/<id>` |
| Blog.BlogSystem.constructor | js/main.js:3-10 | a new system has no posts, no shown posts and no post on show |
| Blog.BlogSystem.LoadPosts | js/main.js:101-130 | the loop and sort leave `posts` as the parsed files sorted newest first and `filteredPosts` equal to `posts`; the router state is unchanged |
| Blog.BlogSystem.FilterPosts | js/main.js:220-235 | `filteredPosts` becomes the search results, stays as it was when the search throws, and remains an in-order subsequence of `posts` |
| Blog.BlogSystem.OpenPost | js/main.js:312-321 | the hash and the post on show change as `Router.OpenPost` says, the post lists do not change, and the shown posts stay an in-order subsequence of `posts` |
| Blog.BlogSystem.ShowHomePage | js/main.js:378-396 | the hash and the post on show change as `Router.ShowHome` says, the post lists do not change, and the shown posts stay an in-order subsequence of `posts` |
| Blog.BlogSystem.HandleRouteChange | js/main.js:33-50 | the hash and the post on show change as `Router.RouteChange` says, the post lists do not change, and the shown posts stay an in-order subsequence of `posts` |

## Left out

- DOM rendering, markup, animations, `scrollTo` and the injected styles (`renderPosts`, the article view, js/main.js:237-310, 323-375, 413-430): these are display only, with no state the core reads back.
- Markdown rendering (`marked.parse`, js/main.js:372) is a foreign library and is not part of this model.
- `fetch`, `await` and `console` logging: a fetched file is an input `Fetched(filename, body)` whose body is `None` when the fetch failed or was not ok. The hard-coded file list (js/main.js:104-109) is the caller's input.
- A rejected `fetch` or `response.text()` lands in the per-file `catch` (js/main.js:123-125). The model gives that file `body == None`, the same as a response that is not ok, so the loop skips it and goes on.
- The outer `catch` of `loadPosts` (js/main.js:131-136) and the `catch` of `parseMarkdownPost` (js/main.js:169-172) are not modelled, because no modelled step throws there.
- Dark mode, `localStorage`, event-listener wiring and the search-box syncing (js/main.js:21-31, 51-99) are browser plumbing.
- `init` (js/main.js:12-19) is not modelled as one operation. It calls the left-out plumbing (`setupDarkMode`, `setupEventListeners`, `setupRouting`), then `loadPosts`, then the left-out display (`renderPosts`), then `handleInitialRoute` (js/main.js:28-31), which is `handleRouteChange`. The modelled steps of that sequence are `Blog.BlogSystem.LoadPosts` followed by `Blog.BlogSystem.HandleRouteChange`.
- The query normalisation `toLowerCase().trim()` (js/main.js:72) is not modelled. `Store.Filtered` and `Blog.BlogSystem.FilterPosts` are stated for any query.
- `formatDate` (js/main.js:398-405) depends on the locale and is not modelled.
- Dates: `new Date(b.date) - new Date(a.date)` is floating-point date arithmetic. The sort takes a caller-supplied `timestamp` from a date value to an integer, and NaN dates are not modelled. The default date `new Date().toISOString().split("T")[0]` is the parameter `today`.
- Strings are sequences of Unicode scalar values, not UTF-16 code units, so the 150-character cut and `\s` are stated on characters.
- Text.Lower: maps only ASCII `A`-`Z` to lower case, whereas `toLowerCase` is Unicode-aware. The search and the id derivation are therefore modelled on ASCII case only.
- Hash writes and the `hashchange` events they fire are not modelled as events. The router is a function of the state, and the hash is described by its value afterwards. A write that stores the value already there cannot be told apart from no write. Loop prevention is stated as `Router.RouteChangeIdempotent` and `Router.OpenThenRouteChange`: a handler run on the state the router leaves changes nothing.
- Frontmatter.ParseFrontmatter: a `__proto__` key is not recorded. On a plain object, a string value assigned to it is ignored, and a list value replaces the prototype; neither adds a key. The prototype change itself is not modelled; none of the six post fields can be read through an array prototype.
- Frontmatter.ParseRenderedBlock: the round trip is proved for blocks whose keys and values are already trimmed, hold no newline and, for strings, are not bracketed. Other blocks are parsed by the same functions but have no write-side partner.
- Excerpt.GenerateExcerpt: its own contract states only the length bound. What it keeps of the body is stated by `Excerpt.ExcerptDrawnFromBody` and the lemmas after it.

=== FILE: blog.dfy ===
/**
 * The state of `BlogSystem` (js/main.js) and the methods that update it: loading the
 * posts, searching them, and the hash router. The window's location hash is part of
 * the state because the router both reads and writes it.
 */
module Blog {
  import opened Optional
  import opened Text
  import opened Frontmatter
  import opened Posts
  import opened Store
  import opened Router

  class BlogSystem {
    /** Every loaded post, newest first. */
    var posts: seq<Post>
    /** The posts the search box currently shows. */
    var filteredPosts: seq<Post>
    /** The post on show, or None on the home page. */
    var currentPost: Option<Post>
    /** `window.location.hash`. */
    var hash: string

    /** The shown posts are some of the loaded posts, in the same order. */
    ghost predicate Valid()
      reads this
    {
      IsSubsequence(filteredPosts, posts)
    }

    /** The router's part of the state. */
    function Shown(): View
      reads this
    {
      View(hash, currentPost)
    }

    /** A new system before its posts are loaded; `initialHash` is the hash of the page's address. */
    constructor(initialHash: string)
      ensures posts == [] && filteredPosts == [] && currentPost.None? && hash == initialHash
      ensures Valid()
    {
      posts := [];
      filteredPosts := [];
      currentPost := None;
      hash := initialHash;
    }

    /**
     * `loadPosts`: the files are taken in list order, the ones that fetch and parse
     * are kept, and the result is sorted newest first and shown in full. `today` is
     * the default date of a post without one, and `timestamp` is `new Date(date)`.
     */
    method LoadPosts(files: seq<Fetched>, today: string, timestamp: FmValue -> int)
      modifies this
      ensures posts == LoadedPosts(files, today, timestamp)
      ensures filteredPosts == posts
      ensures currentPost == old(currentPost) && hash == old(hash)
      ensures Valid()
    {
      var loaded: seq<Post> := [];
      var i := 0;
      while i < |files|
        invariant 0 <= i <= |files|
        invariant loaded == ParsedPosts(files[..i], today)
        invariant currentPost == old(currentPost) && hash == old(hash)
      {
        var file := files[i];
        ParsedPostsStep(files, i, today);
        if file.body.Some? {
          var post := ParseMarkdownPost(file.body.value, file.filename, today);
          if post.Some? {
            loaded := loaded + [post.value];
          }
        }
        i := i + 1;
      }
      assert files[..|files|] == files;
      posts := SortNewestFirst(loaded, timestamp);
      filteredPosts := posts;
      SubsequenceRefl(posts);
    }

    /**
     * `filterPosts(query)`: the shown posts become the ones that match; when the
     * search throws on a list-valued field, nothing changes.
     */
    method FilterPosts(query: string)
      requires Valid()
      modifies this
      ensures Filtered(posts, query).Some? ==> filteredPosts == Filtered(posts, query).value
      ensures Filtered(posts, query).None? ==> filteredPosts == old(filteredPosts)
      ensures posts == old(posts) && currentPost == old(currentPost) && hash == old(hash)
      ensures Valid()
    {
      var result := Filtered(posts, query);
      if result.Some? {
        if query == "" {
          SubsequenceRefl(posts);
        } else {
          FilteredSpec(posts, query);
        }
        filteredPosts := result.value;
      }
    }

    /** `openPost(id, updateHash)`. */
    method OpenPost(id: string, updateHash: bool)
      modifies this
      requires Valid()
      ensures Shown() == Router.OpenPost(posts, old(Shown()), id, updateHash)
      ensures posts == old(posts) && filteredPosts == old(filteredPosts)
      ensures Valid()
    {
      var post := FindPost(posts, id);
      if post.None? {
        return;
      }
      currentPost := post;
      if updateHash {
        hash := PostHash(id);
      }
    }

    /** `showHomePage`. */
    method ShowHomePage()
      modifies this
      requires Valid()
      ensures Shown() == ShowHome(old(Shown()))
      ensures posts == old(posts) && filteredPosts == old(filteredPosts)
      ensures Valid()
    {
      if hash != "" {
        hash := "";
      }
      currentPost := None;
    }

    /** `handleRouteChange`: reacts to the hash without writing it when it names a post. */
    method HandleRouteChange()
      modifies this
      requires Valid()
      ensures Shown() == RouteChange(posts, old(Shown()))
      ensures posts == old(posts) && filteredPosts == old(filteredPosts)
      ensures Valid()
    {
      if |hash| >= 2 && hash[..2] == "#/" {
        var postId := hash[2..];
        var post := FindPost(posts, postId);
        if post.Some? {
          OpenPost(postId, false);
        } else {
          ShowHomePage();
        }
      } else {
        ShowHomePage();
      }
    }
  }
}

=== FILE: excerpt.dfy ===
/**
 * `BlogSystem.generateExcerpt` (js/main.js): six regular-expression passes strip
 * markdown from a post body, in this order: headers, bold, italic, inline code,
 * links, fenced code blocks; the text is trimmed; its first blank-line-separated
 * paragraph is kept and cut to 150 characters plus "..." when longer.
 *
 * Each pass is written as the left-to-right scan that a global `replace` performs:
 * at each position it tries the pattern; on a match it emits the replacement and
 * resumes after the match, otherwise it emits one character and moves on.
 */
module Excerpt {
  import opened Optional
  import opened Text

  /** Longest first paragraph kept whole. */
  const MaxLength: nat := 150
  const Ellipsis: string := "..."
  const Fence: string := "```"
  const ParagraphBreak: string := "\n\n"

  /** Number of `#` characters at the start of `s`. */
  function HashRun(s: string): (n: nat)
    ensures n <= |s|
    ensures forall i :: 0 <= i < n ==> s[i] == '#'
    ensures n < |s| ==> s[n] != '#'
  {
    if s != [] && s[0] == '#' then 1 + HashRun(s[1..]) else 0
  }

  /** The scan keeps `s[0]` and goes on with the rest. */
  lemma KeepHead(s: string, t: string)
    requires s != [] && IsSubsequence(t, s[1..])
    ensures IsSubsequence([s[0]] + t, s)
  {
    SubsequenceCons(s[0], t, s[1..]);
    assert [s[0]] + s[1..] == s;
  }

  /** The scan keeps the slice `s[p..q]` and goes on from a later index. */
  lemma {:induction false} KeepSlice(s: string, p: nat, q: nat, n: nat, t: string)
    requires p <= q <= n <= |s|
    requires IsSubsequence(t, s[n..])
    ensures IsSubsequence(s[p..q] + t, s[p..])
    decreases q - p
  {
    if p == q {
      assert s[p..q] + t == t;
      assert s[p..][n - p..] == s[n..];
      SubsequenceOfSuffix(t, s[p..], n - p);
    } else {
      KeepSlice(s, p + 1, q, n, t);
      SubsequenceCons(s[p], s[p + 1..q] + t, s[p + 1..]);
      assert [s[p]] + (s[p + 1..q] + t) == s[p..q] + t;
      assert [s[p]] + s[p + 1..] == s[p..];
    }
  }

  /** Length of a `#{1,6}\s+` match at index 0 of `s`, or 0 when there is none. */
  function HeaderAt(s: string): (n: nat)
    ensures n <= |s|
    ensures n > 0 ==> s[0] == '#'
  {
    var k := HashRun(s);
    if 1 <= k <= 6 && k < |s| && IsSpace(s[k]) then k + SpaceRun(s[k..]) else 0
  }

  /** The scan keeps the slice `s[p..q]` and goes on from a later index `n`. */
  lemma KeepInner(s: string, p: nat, q: nat, n: nat, t: string)
    requires p <= q <= n <= |s|
    requires IsSubsequence(t, s[n..])
    ensures IsSubsequence(s[p..q] + t, s)
  {
    KeepSlice(s, p, q, n, t);
    SubsequenceOfSuffix(s[p..q] + t, s, p);
  }

  /**
   * `.replace(/#{1,6}\s+/g, "")`. A run of one to six `#` followed by white space is
   * removed with all of that white space; of a longer run only the last six `#`
   * can match, so the extra leading ones stay.
   */
  function StripHeaders(s: string): (r: string)
    ensures |r| <= |s|
    ensures '#' !in s ==> r == s
    decreases |s|
  {
    if s == [] then []
    else if HeaderAt(s) > 0 then StripHeaders(s[HeaderAt(s)..])
    else [s[0]] + StripHeaders(s[1..])
  }

  /**
   * The lazy group `(.*?)` followed by `d`: the index of the first occurrence of `d`,
   * found before the group would have to cross a line terminator.
   */
  function LazyClose(s: string, d: string): (r: Option<nat>)
    requires d != []
    ensures r.Some? ==> OccursAt(s, d, r.value)
    ensures r.Some? ==> forall j :: 0 <= j < r.value ==> !IsLineTerminator(s[j])
    ensures r.Some? ==> forall j :: 0 <= j < r.value ==> !OccursAt(s, d, j)
    ensures r.None? ==> forall j :: 0 <= j <= |s| && OccursAt(s, d, j) ==>
      exists k :: 0 <= k < j && IsLineTerminator(s[k])
    decreases |s|
  {
    if OccursAt(s, d, 0) then Some(0)
    else if s == [] || IsLineTerminator(s[0]) then None
    else
      OccursInTail(s, d);
      match LazyClose(s[1..], d)
      case None => None
      case Some(j) => Some(j + 1)
  }

  /** An occurrence in `s` after index 0 is an occurrence in `s[1..]`, one index earlier. */
  lemma OccursInTail(s: string, d: string)
    requires s != []
    ensures forall j :: 0 < j ==> (OccursAt(s, d, j) <==> OccursAt(s[1..], d, j - 1))
  {
    forall j | 0 < j ensures OccursAt(s, d, j) <==> OccursAt(s[1..], d, j - 1) {
      if j + |d| <= |s| {
        assert s[j..j + |d|] == s[1..][j - 1..j - 1 + |d|];
      }
    }
  }

  /** An occurrence in `s` at or after index `n` is an occurrence in `s[n..]`, `n` indices earlier. */
  lemma OccursInSuffix(s: string, d: string, n: nat)
    requires n <= |s|
    ensures forall j :: n <= j ==> (OccursAt(s, d, j) <==> OccursAt(s[n..], d, j - n))
  {
    forall j | n <= j ensures OccursAt(s, d, j) <==> OccursAt(s[n..], d, j - n) {
      if j + |d| <= |s| {
        assert s[n..][j - n..j - n + |d|] == s[j..j + |d|];
      }
    }
  }

  /**
   * The pattern `D(.*?)D` at index 0 of `s`: the length of the text between the two
   * delimiters, or None when there is no match.
   */
  function PairAt(s: string, d: string): (r: Option<nat>)
    requires d != []
    ensures r.Some? ==> 2 * |d| + r.value <= |s| && s[0] == d[0]
    ensures r.Some? ==> OccursAt(s, d, 0) && OccursAt(s, d, |d| + r.value)
    ensures r.Some? ==> forall j :: |d| <= j < |d| + r.value ==> !IsLineTerminator(s[j])
    ensures r.Some? ==> forall j :: |d| <= j < |d| + r.value ==> !OccursAt(s, d, j)
  {
    if OccursAt(s, d, 0) then
      assert s[..|d|][0] == s[0];
      var t := s[|d|..];
      var c := LazyClose(t, d);
      if c.Some? then
        OccursInSuffix(s, d, |d|);
        c
      else c
    else None
  }

  /**
   * `.replace(/D(.*?)D/g, "$1")` for a delimiter D: bold `**`, italic `*` and inline
   * code `` ` ``. A delimiter, the shortest text on the same line, and the next
   * delimiter are replaced by that text.
   */
  function StripPairs(s: string, d: string): (r: string)
    requires d != []
    ensures |r| <= |s|
    ensures d[0] !in s ==> r == s
    decreases |s|
  {
    if s == [] then []
    else match PairAt(s, d)
      case Some(j) => s[|d|..|d| + j] + StripPairs(s[2 * |d| + j..], d)
      case None => [s[0]] + StripPairs(s[1..], d)
  }

  /** A link `[text](url)` at the start of `s`: the end of its text and of the whole link. */
  datatype Link = Link(textEnd: nat, linkEnd: nat)

  /**
   * The pattern `\[([^\]]+)\]\([^)]+\)` at index 0: `[`, one or more characters up to
   * the first `]`, then `(`, one or more characters up to the first `)`, then `)`.
   */
  function LinkAt(s: string): (r: Option<Link>)
    ensures r.Some? ==> 1 < r.value.textEnd && r.value.textEnd + 3 < r.value.linkEnd <= |s|
    ensures r.Some? ==> s[0] == '['
  {
    if s == [] || s[0] != '[' then None
    else
      var p := IndexOf(s[1..], ']');
      if p < 1 then None
      else
        var close := 1 + p;
        if close + 1 < |s| && s[close + 1] == '(' then
          var q := IndexOf(s[close + 2..], ')');
          if q < 1 then None
          else Some(Link(close, close + 2 + q + 1))
        else None
  }

  /** `.replace(/\[([^\]]+)\]\([^)]+\)/g, "$1")`: a link is replaced by its text. */
  function StripLinks(s: string): (r: string)
    ensures |r| <= |s|
    ensures '[' !in s ==> r == s
    decreases |s|
  {
    if s == [] then []
    else match LinkAt(s)
      case Some(link) => s[1..link.textEnd] + StripLinks(s[link.linkEnd..])
      case None => [s[0]] + StripLinks(s[1..])
  }

  /** ``.replace(/```[\s\S]*?```/g, "")``: three backticks up to the next three are removed. */
  function StripFences(s: string): (r: string)
    ensures |r| <= |s|
    ensures '`' !in s ==> r == s
    decreases |s|
  {
    if s == [] then []
    else if OccursAt(s, Fence, 0) && Find(s[3..], Fence).Some? then
      assert s[0..3][0] == s[0];
      StripFences(s[3 + Find(s[3..], Fence).value + 3..])
    else
      [s[0]] + StripFences(s[1..])
  }

  /* Every pass only deletes characters: its result is a subsequence of its input. */

  lemma {:induction false} StripHeadersDeletes(s: string)
    ensures IsSubsequence(StripHeaders(s), s)
    decreases |s|
  {
    if s != [] {
      var n := HeaderAt(s);
      if n > 0 {
        StripHeadersDeletes(s[n..]);
        SubsequenceOfSuffix(StripHeaders(s[n..]), s, n);
      } else {
        StripHeadersDeletes(s[1..]);
        KeepHead(s, StripHeaders(s[1..]));
      }
    }
  }

  lemma PairsMatchStep(s: string, d: string)
    requires d != [] && s != [] && PairAt(s, d).Some?
    ensures var j := PairAt(s, d).value;
      StripPairs(s, d) == s[|d|..|d| + j] + StripPairs(s[2 * |d| + j..], d)
  {
  }

  lemma {:induction false} StripPairsDeletes(s: string, d: string)
    requires d != []
    ensures IsSubsequence(StripPairs(s, d), s)
    decreases |s|
  {
    if s != [] {
      if PairAt(s, d).Some? {
        var j := PairAt(s, d).value;
        var n := 2 * |d| + j;
        var t := StripPairs(s[n..], d);
        StripPairsDeletes(s[n..], d);
        KeepInner(s, |d|, |d| + j, n, t);
        PairsMatchStep(s, d);
      } else {
        StripPairsDeletes(s[1..], d);
        KeepHead(s, StripPairs(s[1..], d));
      }
    }
  }

  lemma {:induction false} StripLinksDeletes(s: string)
    ensures IsSubsequence(StripLinks(s), s)
    decreases |s|
  {
    if s != [] {
      match LinkAt(s)
      case Some(link) =>
        StripLinksDeletes(s[link.linkEnd..]);
        KeepInner(s, 1, link.textEnd, link.linkEnd, StripLinks(s[link.linkEnd..]));
      case None =>
        StripLinksDeletes(s[1..]);
        KeepHead(s, StripLinks(s[1..]));
    }
  }

  lemma {:induction false} StripFencesDeletes(s: string)
    ensures IsSubsequence(StripFences(s), s)
    decreases |s|
  {
    if s == [] {
    } else if OccursAt(s, Fence, 0) && Find(s[3..], Fence).Some? {
      var n := 3 + Find(s[3..], Fence).value + 3;
      StripFencesDeletes(s[n..]);
      SubsequenceOfSuffix(StripFences(s[n..]), s, n);
    } else {
      StripFencesDeletes(s[1..]);
      KeepHead(s, StripFences(s[1..]));
    }
  }

  /** No character that starts a pattern: `#`, `*`, `` ` `` or `[`. */
  predicate IsPlain(s: string) {
    '#' !in s && '*' !in s && '`' !in s && '[' !in s
  }

  /** The six passes in the order the source applies them. */
  function StripMarkdown(s: string): (r: string)
    ensures |r| <= |s|
    ensures IsPlain(s) ==> r == s
  {
    StripFences(StripLinks(StripPairs(StripPairs(StripPairs(StripHeaders(s), "**"), "*"), "`")))
  }

  /** The markdown-free text: the six passes, then `trim()`. */
  function PlainText(body: string): (r: string)
    ensures IsTrimmed(r) && |r| <= |body|
    ensures IsPlain(body) ==> r == Trim(body)
  {
    Trim(StripMarkdown(body))
  }

  /** `text.split("\n\n")[0]`: the text up to the first blank-line break. */
  function FirstParagraph(t: string): (r: string)
    ensures r <= t
    ensures r == t ==> forall j :: 0 <= j <= |t| ==> !OccursAt(t, ParagraphBreak, j)
    ensures r != t ==> OccursAt(t, ParagraphBreak, |r|)
    ensures forall j :: 0 <= j < |r| ==> !OccursAt(t, ParagraphBreak, j)
  {
    match Find(t, ParagraphBreak)
    case None => t
    case Some(i) => t[..i]
  }

  /**
   * A paragraph longer than 150 characters is cut to its first 150 and "..." is
   * appended; a shorter one is kept whole.
   */
  function Truncate(p: string): (r: string)
    ensures |r| <= MaxLength + |Ellipsis|
    ensures |p| <= MaxLength ==> r == p
    ensures |p| > MaxLength ==> |r| == MaxLength + 3 && r[..MaxLength] == p[..MaxLength]
                                && r[MaxLength..] == Ellipsis
  {
    if |p| > MaxLength then p[..MaxLength] + Ellipsis else p
  }

  /** `generateExcerpt(content)`. */
  function GenerateExcerpt(body: string): (r: string)
    ensures |r| <= MaxLength + |Ellipsis|
  {
    Truncate(FirstParagraph(PlainText(body)))
  }


  /* One step of each scan at a character that cannot start its pattern. */

  lemma HeadersStep(s: string)
    requires s != [] && s[0] != '#'
    ensures StripHeaders(s) == [s[0]] + StripHeaders(s[1..])
  {
  }

  lemma PairsStep(s: string, d: string)
    requires d != [] && s != [] && s[0] != d[0]
    ensures StripPairs(s, d) == [s[0]] + StripPairs(s[1..], d)
  {
  }

  lemma LinksStep(s: string)
    requires s != [] && s[0] != '['
    ensures StripLinks(s) == [s[0]] + StripLinks(s[1..])
  {
    assert LinkAt(s).None?;
  }

  lemma FencesStep(s: string)
    requires s != [] && s[0] != '`'
    ensures StripFences(s) == [s[0]] + StripFences(s[1..])
  {
    if 3 <= |s| {
      assert s[..3][0] == s[0];
    }
  }

  /* Text that contains no markup character passes through every pass unchanged. */

  /** Splitting the head off a concatenation. */
  lemma Uncons(a: string, x: string, y: string)
    requires a != []
    ensures (a + x)[0] == a[0] && (a + x)[1..] == a[1..] + x
    ensures [a[0]] + (a[1..] + y) == a + y
  {
    assert [a[0]] + a[1..] == a;
  }

  lemma {:induction false} HeadersSkipPlainPrefix(a: string, x: string)
    requires '#' !in a
    ensures StripHeaders(a + x) == a + StripHeaders(x)
  {
    if a == [] {
      assert a + x == x;
    } else {
      Uncons(a, x, StripHeaders(x));
      HeadersSkipPlainPrefix(a[1..], x);
      HeadersStep(a + x);
    }
  }

  lemma {:induction false} PairsSkipPlainPrefix(a: string, x: string, d: string)
    requires d != [] && d[0] !in a
    ensures StripPairs(a + x, d) == a + StripPairs(x, d)
  {
    if a == [] {
      assert a + x == x;
    } else {
      Uncons(a, x, StripPairs(x, d));
      PairsSkipPlainPrefix(a[1..], x, d);
      PairsStep(a + x, d);
    }
  }

  lemma {:induction false} LinksSkipPlainPrefix(a: string, x: string)
    requires '[' !in a
    ensures StripLinks(a + x) == a + StripLinks(x)
  {
    if a == [] {
      assert a + x == x;
    } else {
      Uncons(a, x, StripLinks(x));
      LinksSkipPlainPrefix(a[1..], x);
      LinksStep(a + x);
    }
  }

  lemma {:induction false} FencesSkipPlainPrefix(a: string, x: string)
    requires '`' !in a
    ensures StripFences(a + x) == a + StripFences(x)
  {
    if a == [] {
      assert a + x == x;
    } else {
      Uncons(a, x, StripFences(x));
      FencesSkipPlainPrefix(a[1..], x);
      FencesStep(a + x);
    }
  }

  /** A plain prefix passes through all six passes unchanged. */
  lemma StripSkipsPlainPrefix(a: string, x: string)
    requires IsPlain(a)
    ensures StripMarkdown(a + x) == a + StripMarkdown(x)
  {
    HeadersSkipPlainPrefix(a, x);
    var x1 := StripHeaders(x);
    PairsSkipPlainPrefix(a, x1, "**");
    var x2 := StripPairs(x1, "**");
    PairsSkipPlainPrefix(a, x2, "*");
    var x3 := StripPairs(x2, "*");
    PairsSkipPlainPrefix(a, x3, "`");
    var x4 := StripPairs(x3, "`");
    LinksSkipPlainPrefix(a, x4);
    FencesSkipPlainPrefix(a, StripLinks(x4));
  }

  /** The six passes together only delete characters. */
  lemma StripMarkdownDeletes(s: string)
    ensures IsSubsequence(StripMarkdown(s), s)
  {
    var s1 := StripHeaders(s);
    var s2 := StripPairs(s1, "**");
    var s3 := StripPairs(s2, "*");
    var s4 := StripPairs(s3, "`");
    var s5 := StripLinks(s4);
    StripHeadersDeletes(s);
    StripPairsDeletes(s1, "**");
    SubsequenceTrans(s2, s1, s);
    StripPairsDeletes(s2, "*");
    SubsequenceTrans(s3, s2, s);
    StripPairsDeletes(s3, "`");
    SubsequenceTrans(s4, s3, s);
    StripLinksDeletes(s4);
    SubsequenceTrans(s5, s4, s);
    StripFencesDeletes(s5);
    SubsequenceTrans(StripFences(s5), s5, s);
  }

  /** The markdown-free text consists of characters of the body, in order. */
  lemma PlainTextDrawnFromBody(body: string)
    ensures IsSubsequence(PlainText(body), body)
  {
    var m := StripMarkdown(body);
    var t := PlainText(body);
    StripMarkdownDeletes(body);
    TrimIsSubsequence(m);
    SubsequenceTrans(t, m, body);
  }

  /**
   * Every character of the excerpt before the "..." comes from the body, in the
   * body's order: the excerpt adds nothing but the ellipsis.
   */
  lemma ExcerptDrawnFromBody(body: string)
    ensures var e := GenerateExcerpt(body);
      IsSubsequence(if |e| <= MaxLength then e else e[..MaxLength], body)
  {
    var t := PlainText(body);
    var p := FirstParagraph(t);
    PlainTextDrawnFromBody(body);
    assert p == t[..|p|];
    PrefixIsSubsequence(t, |p|);
    SubsequenceTrans(p, t, body);
    if |p| > MaxLength {
      PrefixIsSubsequence(p, MaxLength);
      SubsequenceTrans(p[..MaxLength], p, body);
    }
  }

  lemma PairsNoMatchStep(s: string, d: string)
    requires d != [] && s != [] && PairAt(s, d).None?
    ensures StripPairs(s, d) == [s[0]] + StripPairs(s[1..], d)
  {
  }

  lemma FencesNoMatchStep(s: string)
    requires s != [] && !OccursAt(s, Fence, 0)
    ensures StripFences(s) == [s[0]] + StripFences(s[1..])
  {
  }

  /** Inline-code pass on a lone backtick and on a three-backtick fence. */
  lemma InlineCodeOnTicks()
    ensures StripPairs("`", "`") == "`"
    ensures StripPairs("```", "`") == "`"
  {
    assert LazyClose("", "`") == None;
    PairsNoMatchStep("`", "`");
    assert "```"[1..] == "``" && "``"[..1] == "`";
    assert PairAt("```", "`") == Some(0);
    PairsMatchStep("```", "`");
    assert "```"[2..] == "`";
  }

  /**
   * The inline-code pass on a fenced block whose code starts on a new line: the
   * opening "``" is an empty pair, the third backtick finds no partner on its line,
   * and the closing fence loses its first two backticks the same way.
   */
  lemma InlineCodeOnFence(mid: string)
    requires '`' !in mid && mid != [] && IsLineTerminator(mid[0])
    ensures StripPairs("```" + mid + "```", "`") == "`" + mid + "`"
  {
    var x := "`" + mid + "```";
    var y := StripPairs(mid + "```", "`");
    assert StripPairs("```" + mid + "```", "`") == StripPairs(x, "`") by {
      assert "```" + mid + "```" == "``" + x;
      OpeningTicksDropped(x);
    }
    assert StripPairs(x, "`") == "`" + y by {
      ThirdTickKept(mid);
    }
    assert y == mid + "`" by {
      PairsSkipPlainPrefix(mid, "```", "`");
      InlineCodeOnTicks();
    }
  }

  /** Two backticks in a row are an empty inline-code pair and vanish. */
  lemma OpeningTicksDropped(x: string)
    ensures StripPairs("``" + x, "`") == StripPairs(x, "`")
  {
    var s := "``" + x;
    assert s[1..][..1] == "`";
    assert PairAt(s, "`") == Some(0);
    PairsMatchStep(s, "`");
    assert s[2..] == x;
  }

  /** A backtick followed by a line break before the next backtick is kept. */
  lemma ThirdTickKept(mid: string)
    requires '`' !in mid && mid != [] && IsLineTerminator(mid[0])
    ensures StripPairs("`" + mid + "```", "`") == "`" + StripPairs(mid + "```", "`")
  {
    var s2 := "`" + mid + "```";
    assert s2[1..] == mid + "```" && s2[..1] == "`";
    assert (mid + "```")[..1] == [mid[0]];
    assert !OccursAt(mid + "```", "`", 0);
    assert LazyClose(mid + "```", "`") == None;
    PairsNoMatchStep(s2, "`");
  }

  /** The fence pass finds no three backticks in a row in `` `mid` ``. */
  lemma FencesOnSingleTicks(mid: string)
    requires '`' !in mid && mid != []
    ensures StripFences("`" + mid + "`") == "`" + mid + "`"
  {
    var u := "`" + mid + "`";
    assert u[1] == mid[0];
    FencesNoMatchStep(u);
    assert u[1..] == mid + "`";
    FencesSkipPlainPrefix(mid, "`");
    assert !OccursAt("`", Fence, 0);
    FencesNoMatchStep("`");
  }

  /**
   * A fenced code block is not removed. The inline-code pass runs first and pairs
   * the first two backticks of each fence, leaving a single backtick at either end,
   * so the fence pass no longer finds three in a row and the code stays in the text.
   */
  lemma FenceSurvivesInlineCodePass(x: string)
    requires IsPlain(x)
    ensures StripMarkdown("```\n" + x + "\n```") == "`\n" + x + "\n`"
  {
    var mid := "\n" + x + "\n";
    var s := "```" + mid + "```";
    assert s == "```\n" + x + "\n```";
    assert '#' !in s && '*' !in s;
    var u := "`" + mid + "`";
    assert u == "`\n" + x + "\n`";
    InlineCodeOnFence(mid);
    assert '[' !in u;
    FencesOnSingleTicks(mid);
  }

  /**
   * A body whose first paragraph is plain text of at most 150 characters has that
   * paragraph as its excerpt.
   */
  lemma PlainParagraphIsExcerpt(p: string, rest: string)
    requires IsPlain(p) && p != [] && IsTrimmed(p) && '\n' !in p && |p| <= MaxLength
    ensures GenerateExcerpt(p + ParagraphBreak + rest) == p
  {
    var a := p + ParagraphBreak;
    assert IsPlain(a);
    assert p + ParagraphBreak + rest == a + rest;
    StripSkipsPlainPrefix(a, rest);
    var y := StripMarkdown(rest);
    TrimAfterPlainStart(p, y);
  }

  /** Trimming `p + "\n\n" + y` keeps `p` whole as the first paragraph. */
  lemma TrimAfterPlainStart(p: string, y: string)
    requires p != [] && IsTrimmed(p) && '\n' !in p
    ensures FirstParagraph(Trim(p + ParagraphBreak + y)) == p
  {
    var s := p + ParagraphBreak + y;
    assert s[0] == p[0] && s[|p| - 1] == p[|p| - 1] && s[|p|] == '\n' && s[|p| + 1] == '\n';
    assert TrimStart(s) == s;
    var t := Trim(s);
    assert t == TrimEnd(s) && t == s[..|t|];
    assert |p| - 1 < |t| by {
      var n := SpaceRunBack(s);
      assert !IsSpace(s[|p| - 1]);
    }
    assert t[..|p|] == p;
    assert |t| != |p| + 1;
    forall j | 0 <= j < |p| ensures !OccursAt(t, ParagraphBreak, j) {
      assert t[j] == p[j] && p[j] != '\n';
      if j + 2 <= |t| {
        assert t[j..j + 2][0] == t[j];
      }
    }
    var r := FirstParagraph(t);
    if |t| >= |p| + 2 {
      assert t[|p|..|p| + 2] == [t[|p|], t[|p| + 1]] == ParagraphBreak;
      assert OccursAt(t, ParagraphBreak, |p|);
      assert r != t;
      assert |r| == |p|;
    } else {
      assert t == p;
      assert r == t;
    }
  }

  /**
   * A post body that opens with a heading gets the heading's text as its excerpt:
   * the header pass removes only the `#` marker, not the heading line.
   */
  lemma HeadingTextIsExcerpt(title: string, rest: string)
    requires IsPlain(title) && title != [] && IsTrimmed(title) && '\n' !in title
    requires |title| <= MaxLength
    ensures GenerateExcerpt("# " + title + ParagraphBreak + rest) == title
  {
    var s := "# " + title + ParagraphBreak + rest;
    var x := title + ParagraphBreak + rest;
    assert s == "# " + x && s[2..] == x;
    assert HashRun(s[1..]) == 0;
    assert SpaceRun(s[1..]) == 1 by {
      assert s[1..][1..] == x;
      assert !IsSpace(x[0]);
    }
    assert HeaderAt(s) == 2;
    assert StripHeaders(s) == StripHeaders(x);
    var a := title + ParagraphBreak;
    assert x == a + rest;
    StripSkipsPlainPrefix(a, rest);
    var y := StripMarkdown(rest);
    TrimAfterPlainStart(title, y);
  }
}

=== FILE: frontmatter.dfy ===
/**
 * The frontmatter parser of `BlogSystem.parseFrontmatter` (js/main.js): a block of
 * `key: value` lines becomes a dictionary; a bracketed value becomes a list of
 * trimmed items; a later line for the same key overwrites an earlier one.
 */
module Frontmatter {
  import opened Optional
  import opened Text

  /** A frontmatter value: the trimmed text after the colon, or the items of a bracketed list. */
  datatype FmValue = Str(s: string) | List(items: seq<string>)

  /** One recorded line: the key before the first colon and its value. */
  datatype Entry = Entry(key: string, value: FmValue)

  /** The key that a plain object assignment does not record as its own property. */
  const ProtoKey: string := "__proto__"

  /** `value.startsWith("[") && value.endsWith("]")`. */
  predicate IsBracketed(v: string) {
    |v| >= 2 && v[0] == '[' && v[|v| - 1] == ']'
  }

  function TrimAll(parts: seq<string>): (r: seq<string>)
    ensures |r| == |parts|
    ensures forall i :: 0 <= i < |r| ==> r[i] == Trim(parts[i])
  {
    seq(|parts|, i requires 0 <= i < |parts| => Trim(parts[i]))
  }

  /** A list item as the parser produces it: trimmed and free of commas. */
  predicate IsItem(s: string) {
    IsTrimmed(s) && ',' !in s
  }

  /**
   * The value part of a line. A bracketed value is split on every comma between the
   * brackets and each piece trimmed, so it has one item more than it has commas
   * (`[]` gives one empty item); any other value is kept as it is.
   */
  function ParseValue(v: string): (r: FmValue)
    ensures r.List? <==> IsBracketed(v)
    ensures r.Str? ==> r.s == v
    ensures r.List? ==> |r.items| == Count(v[1..|v| - 1], ',') + 1
    ensures r.List? ==> forall i :: 0 <= i < |r.items| ==> IsItem(r.items[i])
  {
    if IsBracketed(v) then List(ParseItems(v[1..|v| - 1])) else Str(v)
  }

  /** Comma-free pieces joined by commas come back as the same pieces, each trimmed. */
  lemma ParseItemsArePieces(parts: seq<string>)
    requires |parts| >= 1 && forall i :: 0 <= i < |parts| ==> ',' !in parts[i]
    ensures ParseItems(Join(parts, ',')) == TrimAll(parts)
  {
    SplitJoin(parts, ',');
  }

  /** A bracketed value is the list of its comma-separated pieces, each trimmed. */
  lemma ParseBracketedValue(parts: seq<string>)
    requires |parts| >= 1 && forall i :: 0 <= i < |parts| ==> ',' !in parts[i]
    ensures ParseValue("[" + Join(parts, ',') + "]") == List(TrimAll(parts))
  {
    var v := "[" + Join(parts, ',') + "]";
    assert v[1..|v| - 1] == Join(parts, ',');
    ParseItemsArePieces(parts);
  }

  /** `tags: [go, rust]` gives the tags "go" and "rust". */
  lemma TagListExample()
    ensures ParseValue("[go, rust]") == List(["go", "rust"])
  {
    var parts := ["go", " rust"];
    ExamplePieces();
    ParseBracketedValue(parts);
    assert TrimAll(parts) == ["go", "rust"];
  }

  lemma ExamplePieces()
    ensures "[" + Join(["go", " rust"], ',') + "]" == "[go, rust]"
    ensures ',' !in "go" && ',' !in " rust"
    ensures Trim("go") == "go" && Trim(" rust") == "rust"
  {
    JoinTwo("go", " rust");
    assert "[" + ("go" + [','] + " rust") + "]" == "[go, rust]";
    TrimmedWords();
  }

  lemma TrimmedWords()
    ensures Trim("go") == "go" && Trim(" rust") == "rust"
  {
    assert IsTrimmed("go");
    TrimLeadingSpace();
  }

  lemma JoinTwo(a: string, b: string)
    ensures Join([a, b], ',') == a + [','] + b
  {
    assert [a, b][1..] == [b];
  }

  lemma TrimLeadingSpace()
    ensures Trim(" rust") == "rust"
  {
    assert SpaceRun(" rust") == 1 by {
      assert SpaceRun("rust") == 0;
    }
    assert TrimStart(" rust") == "rust";
    assert IsTrimmed("rust");
  }

  /** The text between the brackets, split on every comma, each piece trimmed. */
  function ParseItems(inner: string): (r: seq<string>)
    ensures |r| == Count(inner, ',') + 1
    ensures forall i :: 0 <= i < |r| ==> IsItem(r[i])
  {
    var parts := Split(inner, ',');
    var items := TrimAll(parts);
    forall i | 0 <= i < |items| ensures ',' !in items[i] {
      TrimKeepsAbsent(parts[i], ',');
    }
    items
  }

  /**
   * One line of the block: `None` for a line whose trimmed text has no colon (blank
   * lines among them); otherwise the trimmed text before the first colon and the
   * parsed, trimmed text after it.
   */
  function ParseLine(line: string): (r: Option<Entry>)
    ensures r.None? <==> ':' !in Trim(line)
    ensures r.Some? ==> ':' !in r.value.key && IsTrimmed(r.value.key)
  {
    var t := Trim(line);
    if t == "" then None
    else
      var ci := IndexOf(t, ':');
      if ci == -1 then None
      else
        TrimKeepsAbsent(t[..ci], ':');
        Some(Entry(Trim(t[..ci]), ParseValue(Trim(t[ci + 1..]))))
  }

  /** A recorded line is split at its first colon: key before it, value after it. */
  lemma ParseLineSplitsAtFirstColon(line: string, before: string, after: string)
    requires Trim(line) == before + ":" + after && ':' !in before
    ensures ParseLine(line) == Some(Entry(Trim(before), ParseValue(Trim(after))))
  {
    var t := Trim(line);
    var n := |before|;
    assert t[..n] == before && t[n + 1..] == after && t[n] == ':';
    assert IndexOf(t, ':') == n;
  }

  /** The parsed line records key `k` (the special prototype key is never recorded). */
  predicate Defines(parsed: Option<Entry>, k: string) {
    parsed.Some? && parsed.value.key == k && k != ProtoKey
  }

  /**
   * `frontmatter[key] = value` for one parsed line: the key the line defines is bound
   * to its value, and every other binding stays as it was.
   */
  function Record(m: map<string, FmValue>, parsed: Option<Entry>): (r: map<string, FmValue>)
    ensures forall k :: Defines(parsed, k) ==> k in r && r[k] == parsed.value.value
    ensures forall k :: !Defines(parsed, k) ==> (k in r <==> k in m) && (k in m ==> r[k] == m[k])
  {
    match parsed
    case None => m
    case Some(e) => if e.key == ProtoKey then m else m[e.key := e.value]
  }

  /** The dictionary built from the parsed lines, first to last, starting empty. */
  function Collect(parsed: seq<Option<Entry>>): (r: map<string, FmValue>)
    ensures ProtoKey !in r
  {
    if parsed == [] then map[]
    else Record(Collect(parsed[..|parsed| - 1]), parsed[|parsed| - 1])
  }

  function ParseLines(lines: seq<string>): (r: seq<Option<Entry>>)
    ensures |r| == |lines|
    ensures forall i :: 0 <= i < |lines| ==> r[i] == ParseLine(lines[i])
  {
    seq(|lines|, i requires 0 <= i < |lines| => ParseLine(lines[i]))
  }

  /** The dictionary that `parseFrontmatter` returns for a block of text; `__proto__` never becomes a key. */
  function FrontmatterOf(text: string): (r: map<string, FmValue>)
    ensures ProtoKey !in r
  {
    Collect(ParseLines(Split(text, '\n')))
  }

  /**
   * `parseFrontmatter`: split the block on newlines and record each line in turn
   * into a dictionary that starts empty.
   */
  method ParseFrontmatter(text: string) returns (fm: map<string, FmValue>)
    ensures fm == FrontmatterOf(text)
  {
    var lines := Split(text, '\n');
    ghost var parsed := ParseLines(lines);
    fm := map[];
    for i := 0 to |lines|
      invariant fm == Collect(parsed[..i])
    {
      CollectStep(parsed, i);
      ghost var next := Record(fm, parsed[i]);
      var trimmed := Trim(lines[i]);
      if trimmed != "" {
        var colon := IndexOf(trimmed, ':');
        if colon != -1 {
          var key := Trim(trimmed[..colon]);
          var value := ParseValue(Trim(trimmed[colon + 1..]));
          if key != ProtoKey {
            fm := fm[key := value];
          }
        }
      }
      assert fm == next;
    }
    assert parsed[..|lines|] == parsed;
  }

  lemma CollectStep(parsed: seq<Option<Entry>>, i: nat)
    requires i < |parsed|
    ensures Collect(parsed[..i + 1]) == Record(Collect(parsed[..i]), parsed[i])
  {
    assert parsed[..i + 1][..i] == parsed[..i];
  }

  /** A line that does not record `k` leaves the binding of `k` alone. */
  lemma RecordOther(m: map<string, FmValue>, parsed: Option<Entry>, k: string)
    requires !Defines(parsed, k)
    ensures k in Record(m, parsed) <==> k in m
    ensures k in m ==> Record(m, parsed)[k] == m[k]
  {
  }

  /** A key is present exactly when some line records it. */
  lemma KeyPresentIffDefined(parsed: seq<Option<Entry>>, k: string)
    ensures k in Collect(parsed) <==> exists i :: 0 <= i < |parsed| && Defines(parsed[i], k)
  {
    if k in Collect(parsed) {
      var i := PresentIsDefined(parsed, k);
    }
    if exists i :: 0 <= i < |parsed| && Defines(parsed[i], k) {
      var i :| 0 <= i < |parsed| && Defines(parsed[i], k);
      DefinedIsPresent(parsed, i, k);
    }
  }

  lemma {:induction false} DefinedIsPresent(parsed: seq<Option<Entry>>, i: nat, k: string)
    requires i < |parsed| && Defines(parsed[i], k)
    ensures k in Collect(parsed)
  {
    var n := |parsed| - 1;
    var init := parsed[..n];
    if i < n {
      assert init[i] == parsed[i];
      DefinedIsPresent(init, i, k);
      if !Defines(parsed[n], k) {
        RecordOther(Collect(init), parsed[n], k);
      }
    }
  }

  lemma {:induction false} PresentIsDefined(parsed: seq<Option<Entry>>, k: string) returns (i: nat)
    requires k in Collect(parsed)
    ensures i < |parsed| && Defines(parsed[i], k)
  {
    var n := |parsed| - 1;
    var init := parsed[..n];
    if Defines(parsed[n], k) {
      i := n;
    } else {
      RecordOther(Collect(init), parsed[n], k);
      i := PresentIsDefined(init, k);
      assert init[i] == parsed[i];
    }
  }

  /** Every key of the dictionary is the trimmed, colon-free text before a line's first colon. */
  lemma FrontmatterKeys(text: string, k: string)
    requires k in FrontmatterOf(text)
    ensures IsTrimmed(k) && ':' !in k && k != ProtoKey
  {
    var lines := Split(text, '\n');
    var i := PresentIsDefined(ParseLines(lines), k);
    assert ParseLines(lines)[i] == ParseLine(lines[i]);
  }

  /** The value of a key is the value on the LAST line that records it. */
  lemma {:induction false} LastDefinitionWins(parsed: seq<Option<Entry>>, i: nat, k: string)
    requires i < |parsed| && Defines(parsed[i], k)
    requires forall j :: i < j < |parsed| ==> !Defines(parsed[j], k)
    ensures k in Collect(parsed) && Collect(parsed)[k] == parsed[i].value.value
  {
    var n := |parsed| - 1;
    var init := parsed[..n];
    if i < n {
      assert init[i] == parsed[i];
      LastDefinitionWins(init, i, k);
      RecordOther(Collect(init), parsed[n], k);
    }
  }

  /** The text of one line for entry `e`: `key:value`, a list written as `[a,b]`. */
  function RenderValue(v: FmValue): string {
    match v
    case Str(s) => s
    case List(items) => "[" + Join(items, ',') + "]"
  }

  function RenderLine(e: Entry): string {
    e.key + ":" + RenderValue(e.value)
  }

  /** Values that a line can carry and the parser gives back unchanged. */
  predicate IsWritable(e: Entry) {
    && ':' !in e.key && '\n' !in e.key && IsTrimmed(e.key)
    && match e.value
       case Str(s) => IsTrimmed(s) && !IsBracketed(s) && '\n' !in s
       case List(items) =>
         |items| >= 1 && forall i :: 0 <= i < |items| ==> IsItem(items[i]) && '\n' !in items[i]
  }

  lemma {:induction false} JoinFree(parts: seq<string>, c: char, x: char)
    requires forall i :: 0 <= i < |parts| ==> x !in parts[i]
    requires x != c
    ensures x !in Join(parts, c)
  {
    if |parts| > 1 {
      JoinFree(parts[1..], c, x);
    }
  }

  /** A value written out as text parses back to itself. */
  lemma ParseRenderValue(v: FmValue)
    requires IsWritable(Entry("", v))
    ensures IsTrimmed(RenderValue(v)) && ParseValue(RenderValue(v)) == v
    ensures '\n' !in RenderValue(v)
  {
    match v {
      case Str(s) =>
        assert ParseValue(s) == Str(s);
      case List(items) =>
        var vs := RenderValue(v);
        var inner := Join(items, ',');
        JoinFree(items, ',', '\n');
        assert vs == "[" + inner + "]";
        assert vs[1..|vs| - 1] == inner;
        SplitJoin(items, ',');
        assert TrimAll(items) == items;
        assert ParseItems(inner) == items;
        assert IsBracketed(vs);
        assert ParseValue(vs) == List(items);
    }
  }

  /** Two trimmed texts joined by a colon make a trimmed text. */
  lemma ColonJoinTrimmed(a: string, b: string)
    requires IsTrimmed(a) && IsTrimmed(b)
    ensures IsTrimmed(a + ":" + b)
  {
    var line := a + ":" + b;
    assert line[0] == (if a == [] then ':' else a[0]);
    assert line[|line| - 1] == (if b == [] then ':' else b[|b| - 1]);
  }

  /** Parsing a written line gives back the entry. */
  lemma ParseRenderLine(e: Entry)
    requires IsWritable(e)
    ensures ParseLine(RenderLine(e)) == Some(e)
    ensures '\n' !in RenderLine(e)
  {
    var vs := RenderValue(e.value);
    assert IsTrimmed(vs) && ParseValue(vs) == e.value by {
      assert IsWritable(Entry("", e.value));
      ParseRenderValue(e.value);
    }
    assert Trim(RenderLine(e)) == RenderLine(e) by {
      ColonJoinTrimmed(e.key, vs);
    }
    ParseLineSplitsAtFirstColon(RenderLine(e), e.key, vs);
    RenderLineShape(e);
  }

  /** A written line is one line, and starts with its key, or with the colon when the key is empty. */
  lemma RenderLineShape(e: Entry)
    requires IsWritable(e)
    ensures '\n' !in RenderLine(e)
    ensures RenderLine(e)[0] == (if e.key == [] then ':' else e.key[0])
  {
    match e.value {
      case Str(s) =>
      case List(items) =>
        JoinFree(items, ',', '\n');
    }
  }

  function RenderLines(es: seq<Entry>): (r: seq<string>)
    ensures |r| == |es|
    ensures forall i :: 0 <= i < |es| ==> r[i] == RenderLine(es[i])
  {
    seq(|es|, i requires 0 <= i < |es| => RenderLine(es[i]))
  }

  /** A frontmatter block holding one line per entry. */
  function RenderBlock(es: seq<Entry>): string {
    Join(RenderLines(es), '\n')
  }

  /** The lines of a written block parse back to its entries. */
  lemma ParseRenderedLines(es: seq<Entry>)
    requires |es| >= 1
    requires forall i :: 0 <= i < |es| ==> IsWritable(es[i])
    ensures |ParseLines(Split(RenderBlock(es), '\n'))| == |es|
    ensures forall i :: 0 <= i < |es| ==> ParseLines(Split(RenderBlock(es), '\n'))[i] == Some(es[i])
  {
    var lines := RenderLines(es);
    forall i | 0 <= i < |lines| ensures '\n' !in lines[i] && ParseLine(lines[i]) == Some(es[i]) {
      ParseRenderLine(es[i]);
    }
    SplitJoin(lines, '\n');
  }

  /**
   * Writing entries as a block and parsing it gives back, for every key, the value of
   * the last entry with that key.
   */
  lemma ParseRenderedBlock(es: seq<Entry>, i: nat)
    requires |es| >= 1
    requires forall j :: 0 <= j < |es| ==> IsWritable(es[j])
    requires i < |es| && es[i].key != ProtoKey
    requires forall j :: i < j < |es| ==> es[j].key != es[i].key
    ensures es[i].key in FrontmatterOf(RenderBlock(es))
    ensures FrontmatterOf(RenderBlock(es))[es[i].key] == es[i].value
  {
    var parsed := ParseLines(Split(RenderBlock(es), '\n'));
    ParseRenderedLines(es);
    LastDefinitionWins(parsed, i, es[i].key);
  }

  /** ... and no key that none of the entries has. */
  lemma ParseRenderedBlockKeys(es: seq<Entry>, k: string)
    requires |es| >= 1
    requires forall j :: 0 <= j < |es| ==> IsWritable(es[j])
    ensures k in FrontmatterOf(RenderBlock(es)) <==> k != ProtoKey && exists j :: 0 <= j < |es| && es[j].key == k
  {
    var parsed := ParseLines(Split(RenderBlock(es), '\n'));
    ParseRenderedLines(es);
    KeyPresentIffDefined(parsed, k);
    if k != ProtoKey && exists j :: 0 <= j < |es| && es[j].key == k {
      var j :| 0 <= j < |es| && es[j].key == k;
      assert Defines(parsed[j], k);
    }
  }
}

=== FILE: posts.dfy ===
/**
 * `BlogSystem.parseMarkdownPost` (js/main.js): a post file is split by the pattern
 * `^---\s*\n([\s\S]*?)\n---\s*\n([\s\S]*)$` into its frontmatter and its markdown
 * body; the frontmatter is parsed into a dictionary; the post's id is derived from
 * the file name; missing fields get their defaults.
 */
module Posts {
  import opened Optional
  import opened Text
  import opened Frontmatter
  import Excerpt

  /** `s` starts with the three dashes of the opening line. */
  predicate DashesAt(s: string) {
    |s| >= 3 && s[0] == '-' && s[1] == '-' && s[2] == '-'
  }

  /** A closing delimiter starts at `j`: a newline and three dashes. */
  predicate DelimiterAt(s: string, j: nat) {
    j + 4 <= |s| && s[j] == '\n' && s[j + 1] == '-' && s[j + 2] == '-' && s[j + 3] == '-'
  }

  /** The end of the white-space run that starts at `p`. */
  function RunEnd(s: string, p: nat): (e: nat)
    requires p <= |s|
    ensures p <= e <= |s|
    decreases |s| - p
  {
    if p < |s| && IsSpace(s[p]) then RunEnd(s, p + 1) else p
  }

  lemma {:induction false} RunEndIsRun(s: string, p: nat)
    requires p <= |s|
    ensures forall i :: p <= i < RunEnd(s, p) ==> IsSpace(s[i])
    ensures RunEnd(s, p) < |s| ==> !IsSpace(s[RunEnd(s, p)])
    decreases |s| - p
  {
    if p < |s| && IsSpace(s[p]) {
      RunEndIsRun(s, p + 1);
    }
  }

  /** The index of the last newline in `s[lo..hi]`. */
  function LastNewline(s: string, lo: nat, hi: nat): (r: Option<nat>)
    requires lo <= hi <= |s|
    ensures r.Some? ==> lo <= r.value < hi && s[r.value] == '\n'
    ensures r.Some? ==> forall i :: r.value < i < hi ==> s[i] != '\n'
    ensures r.None? ==> forall i :: lo <= i < hi ==> s[i] != '\n'
    decreases hi - lo
  {
    if hi == lo then None
    else if s[hi - 1] == '\n' then Some(hi - 1)
    else LastNewline(s, lo, hi - 1)
  }

  /**
   * `\n---\s*\n` at index `j` of `s`, followed by the body. The greedy `\s*` takes
   * the whole white-space run after the dashes and gives it back up to its last
   * newline, which the pattern's `\n` then matches; the body starts after it.
   */
  function CloseAt(s: string, j: nat): (r: Option<nat>)
    ensures r.Some? ==> DelimiterAt(s, j) && j + 5 <= r.value <= |s| && s[r.value - 1] == '\n'
  {
    if DelimiterAt(s, j) then
      match LastNewline(s, j + 4, RunEnd(s, j + 4))
      case None => None
      case Some(i) => Some(i + 1)
    else None
  }

  /**
   * What a closing delimiter consumes after its dashes is white space up to the last
   * newline of the run, and it matches exactly when that run holds a newline.
   */
  lemma CloseAtRun(s: string, j: nat)
    requires DelimiterAt(s, j)
    ensures var n := RunEnd(s, j + 4);
      && (CloseAt(s, j).Some? <==> exists i :: j + 4 <= i < n && s[i] == '\n')
      && (CloseAt(s, j).Some? ==> forall i :: j + 4 <= i < CloseAt(s, j).value ==> IsSpace(s[i]))
      && (CloseAt(s, j).Some? ==> forall i :: CloseAt(s, j).value <= i < n ==> s[i] != '\n')
  {
    RunEndIsRun(s, j + 4);
  }

  /** The lazy group `([\s\S]*?)` from index `j`: the first index at which a closing delimiter matches. */
  function FirstClose(s: string, j: nat): (r: Option<nat>)
    ensures r.Some? ==> j <= r.value && CloseAt(s, r.value).Some?
    decreases |s| - j
  {
    if j > |s| then None
    else if CloseAt(s, j).Some? then Some(j)
    else FirstClose(s, j + 1)
  }

  /** No closing delimiter matches before the one `FirstClose` finds, nor anywhere when it finds none. */
  lemma {:induction false} FirstCloseIsFirst(s: string, j: nat)
    ensures FirstClose(s, j).Some? ==> forall k :: j <= k < FirstClose(s, j).value ==> CloseAt(s, k).None?
    ensures FirstClose(s, j).None? ==> forall k :: j <= k ==> CloseAt(s, k).None?
    decreases |s| - j
  {
    if j <= |s| && CloseAt(s, j).None? {
      FirstCloseIsFirst(s, j + 1);
    }
  }

  /** Where the frontmatter and the body of a post file start and end. */
  datatype Match = Match(fmStart: nat, fmEnd: nat, bodyStart: nat)

  /**
   * An attempt at the newline just before index `q` as the opening line's `\n`: the
   * frontmatter starting at `q` finds a closing delimiter.
   */
  predicate OpensAt(s: string, q: nat)
    requires 0 < q <= |s|
  {
    s[q - 1] == '\n' && FirstClose(s, q).Some?
  }

  /** For every index `q` of `s`, whether an attempt at `q` succeeds. */
  function Attempts(s: string): (b: seq<bool>)
    ensures |b| == |s| + 1
    ensures forall q :: 0 < q <= |s| ==> b[q] == OpensAt(s, q)
  {
    seq(|s| + 1, q requires 0 <= q <= |s| => q > 0 && OpensAt(s, q))
  }

  /** The largest index in `(lo, k]` whose flag is set, searching down from `k`. */
  function LastSet(b: seq<bool>, lo: nat, k: nat): (r: Option<nat>)
    requires k < |b|
    ensures r.Some? ==> lo < r.value <= k && b[r.value]
    decreases k
  {
    if k <= lo then None
    else if b[k] then Some(k)
    else LastSet(b, lo, k - 1)
  }

  /** `LastSet` finds the last set flag: none above it is set, and none at all when it finds none. */
  lemma {:induction false} LastSetIsLast(b: seq<bool>, lo: nat, k: nat)
    requires k < |b|
    ensures LastSet(b, lo, k).Some? ==> forall q :: LastSet(b, lo, k).value < q <= k ==> !b[q]
    ensures LastSet(b, lo, k).None? ==> forall q :: lo < q <= k ==> !b[q]
    decreases k
  {
    if k > lo && !b[k] {
      LastSetIsLast(b, lo, k - 1);
    }
  }

  /**
   * The match of the frontmatter pattern against a whole post file, if any. The
   * opening line is `---\s*\n`: the greedy `\s*` first takes the white-space run
   * after the dashes and gives it back one character at a time, so each newline of
   * the run is tried as the pattern's `\n`, the last one first, and the first attempt
   * whose frontmatter finds a closing delimiter is the match.
   */
  function MatchFrontmatter(content: string): (r: Option<Match>)
    ensures r.Some? ==> DashesAt(content)
    ensures r.Some? ==> 3 < r.value.fmStart <= r.value.fmEnd && r.value.fmEnd + 5 <= r.value.bodyStart <= |content|
  {
    if !DashesAt(content) then None
    else
      RunEndIsRun(content, 3);
      match LastSet(Attempts(content), 3, RunEnd(content, 3))
      case None => None
      case Some(q) =>
        var j := FirstClose(content, q).value;
        Some(Match(q, j, CloseAt(content, j).value))
  }

  /**
   * The backtracking order of the opening line: every newline of the run after the
   * one the match uses was tried first and found no closing delimiter; when nothing
   * matches, no newline of the run did.
   */
  lemma MatchTriesLastFirst(content: string)
    requires DashesAt(content)
    ensures var n := RunEnd(content, 3); var r := MatchFrontmatter(content);
      && (r.Some? ==> forall q :: r.value.fmStart < q <= n ==> !OpensAt(content, q))
      && (r.None? ==> forall q :: 3 < q <= n ==> !OpensAt(content, q))
  {
    var b := Attempts(content);
    var n := RunEnd(content, 3);
    RunEndIsRun(content, 3);
    LastSetIsLast(b, 3, n);
  }

  /**
   * A match is the opening `---`, whitespace up to a newline, the frontmatter, a
   * closing `\n---`, whitespace up to a newline and the body; no closing delimiter
   * starts inside the frontmatter.
   */
  lemma MatchFrontmatterShape(content: string)
    requires MatchFrontmatter(content).Some?
    ensures var m := MatchFrontmatter(content).value;
      && (forall i :: 3 <= i < m.fmStart ==> IsSpace(content[i]))
      && content[m.fmStart - 1] == '\n'
      && DelimiterAt(content, m.fmEnd)
      && (forall i :: m.fmEnd + 4 <= i < m.bodyStart ==> IsSpace(content[i]))
      && content[m.bodyStart - 1] == '\n'
      && (forall k :: m.fmStart <= k < m.fmEnd ==> CloseAt(content, k).None?)
  {
    var m := MatchFrontmatter(content).value;
    RunEndIsRun(content, 3);
    assert OpensAt(content, m.fmStart);
    CloseAtRun(content, m.fmEnd);
    FirstCloseIsFirst(content, m.fmStart);
  }

  /** An opening line of four dashes is not `---` followed by white space, so nothing matches. */
  lemma FourDashesDoNotOpen(rest: string)
    ensures MatchFrontmatter("----" + rest).None?
  {
    var content := "----" + rest;
    assert content[3] == '-';
    assert RunEnd(content, 3) == 3;
  }

  /** The frontmatter text and the markdown body of a post file. */
  function SplitFrontmatter(content: string): (r: Option<(string, string)>)
    ensures r.None? <==> MatchFrontmatter(content).None?
    ensures r.Some? ==> |r.value.0| + |r.value.1| + 9 <= |content|
    ensures r.Some? ==> r.value.1 == content[|content| - |r.value.1|..]
  {
    match MatchFrontmatter(content)
    case None => None
    case Some(m) => Some((content[m.fmStart..m.fmEnd], content[m.bodyStart..]))
  }

  /** `.replace(/[^a-z0-9]/gi, "-")`: every character other than an ASCII letter or digit becomes `-`. */
  function Hyphenate(s: string): (r: string)
    ensures |r| == |s|
    ensures forall i :: 0 <= i < |s| ==> IsAsciiAlnum(s[i]) ==> r[i] == s[i]
    ensures forall i :: 0 <= i < |s| ==> !IsAsciiAlnum(s[i]) ==> r[i] == '-'
  {
    seq(|s|, i requires 0 <= i < |s| => if IsAsciiAlnum(s[i]) then s[i] else '-')
  }

  predicate IsIdChar(c: char) {
    ('a' <= c <= 'z') || ('0' <= c <= '9') || c == '-'
  }

  /**
   * The post id: the first ".md" in the file name is removed (wherever it occurs),
   * every other character than an ASCII letter or digit becomes `-`, and the result
   * is lower-cased.
   */
  function DeriveId(filename: string): (id: string)
    ensures |id| == |RemoveFirst(filename, ".md")|
    ensures forall i :: 0 <= i < |id| ==> IsIdChar(id[i])
  {
    Lower(Hyphenate(RemoveFirst(filename, ".md")))
  }

  /** A string without `.` has no ".md" to remove. */
  lemma NoExtensionToRemove(s: string)
    requires '.' !in s
    ensures RemoveFirst(s, ".md") == s
  {
    forall j | 0 <= j <= |s| ensures !OccursAt(s, ".md", j) {
      if j + 3 <= |s| {
        assert s[j..j + 3][0] == s[j];
      }
    }
  }

  /** Deriving an id from an id gives it back. */
  lemma DeriveIdIdempotent(filename: string)
    ensures DeriveId(DeriveId(filename)) == DeriveId(filename)
  {
    var id := DeriveId(filename);
    NoExtensionToRemove(id);
    assert Hyphenate(id) == id;
    assert Lower(id) == id;
  }

  /** The ".md" appended to a name without `.` is the one removed. */
  lemma RemoveAppendedExtension(name: string)
    requires '.' !in name
    ensures RemoveFirst(name + ".md", ".md") == name
  {
    var s := name + ".md";
    forall j | 0 <= j < |name| ensures !OccursAt(s, ".md", j) {
      if j + 3 <= |s| {
        assert s[j..j + 3][0] == s[j] == name[j];
      }
    }
    assert OccursAt(s, ".md", |name|);
    assert Find(s, ".md") == Some(|name|);
  }

  /** A file named after an id, plus ".md", gets that id. */
  lemma DeriveIdOfIdFile(id: string)
    requires forall i :: 0 <= i < |id| ==> IsIdChar(id[i])
    ensures DeriveId(id + ".md") == id
  {
    RemoveAppendedExtension(id);
    assert Hyphenate(id) == id;
    assert Lower(id) == id;
  }

  /**
   * Names that differ only in characters other than ASCII letters and digits get the
   * same id: ids are not unique.
   */
  lemma SeparatorsCollide(a: string, b: string)
    requires '.' !in a && '.' !in b && |a| == |b|
    requires forall i :: 0 <= i < |a| ==> a[i] == b[i] || (!IsAsciiAlnum(a[i]) && !IsAsciiAlnum(b[i]))
    ensures DeriveId(a + ".md") == DeriveId(b + ".md")
  {
    RemoveAppendedExtension(a);
    RemoveAppendedExtension(b);
    assert Hyphenate(a) == Hyphenate(b);
  }

  /** "a_b.md" and "a-b.md" are two posts with the id "a-b". */
  lemma IdsCanCollide()
    ensures "a_b" + ".md" != "a-b" + ".md"
    ensures DeriveId("a_b" + ".md") == DeriveId("a-b" + ".md")
  {
    assert ("a_b" + ".md")[1] != ("a-b" + ".md")[1];
    SeparatorsCollide("a_b", "a-b");
  }

  datatype Post = Post(
    id: string,
    title: FmValue,
    excerpt: FmValue,
    date: FmValue,
    tags: seq<string>,
    category: FmValue,
    author: FmValue,
    content: string)

  /** JavaScript truthiness of a frontmatter value: the empty string is falsy, every array is truthy. */
  predicate IsTruthy(v: FmValue) {
    v.List? || v.s != ""
  }

  /** `frontmatter[key] || fallback`. */
  function FieldOr(fm: map<string, FmValue>, key: string, fallback: FmValue): (r: FmValue)
    ensures IsTruthy(fallback) ==> IsTruthy(r)
    ensures key in fm && IsTruthy(fm[key]) ==> r == fm[key]
    ensures !(key in fm && IsTruthy(fm[key])) ==> r == fallback
  {
    if key in fm && IsTruthy(fm[key]) then fm[key] else fallback
  }

  /** `Array.isArray(frontmatter.tags) ? frontmatter.tags : []`. */
  function TagsOf(fm: map<string, FmValue>): (r: seq<string>)
    ensures "tags" in fm && fm["tags"].List? ==> r == fm["tags"].items
    ensures !("tags" in fm && fm["tags"].List?) ==> r == []
  {
    if "tags" in fm && fm["tags"].List? then fm["tags"].items else []
  }

  /**
   * The post built from a parsed frontmatter dictionary and a body. `today` is the
   * date part of the current time in ISO format, the default publication date.
   */
  function AssemblePost(fm: map<string, FmValue>, body: string, filename: string, today: string): (p: Post)
    ensures IsTruthy(p.title) && IsTruthy(p.category) && IsTruthy(p.author)
    ensures today != "" ==> IsTruthy(p.date)
    ensures IsTrimmed(p.content) && |p.content| <= |body|
    ensures forall i :: 0 <= i < |p.id| ==> IsIdChar(p.id[i])
  {
    Post(
      DeriveId(filename),
      FieldOr(fm, "title", Str("Untitled")),
      FieldOr(fm, "excerpt", Str(Excerpt.GenerateExcerpt(body))),
      FieldOr(fm, "date", Str(today)),
      TagsOf(fm),
      FieldOr(fm, "category", Str("Uncategorized")),
      FieldOr(fm, "author", Str("Anonymous")),
      Trim(body))
  }

  /** `parseMarkdownPost(content, filename)`: None when the file has no frontmatter. */
  function ParseMarkdownPost(content: string, filename: string, today: string): (r: Option<Post>)
    ensures r.None? <==> MatchFrontmatter(content).None?
    ensures !DashesAt(content) ==> r.None?
  {
    match SplitFrontmatter(content)
    case None => None
    case Some((fmText, body)) => Some(AssemblePost(FrontmatterOf(fmText), body, filename, today))
  }

  /** Every tag of a parsed post is trimmed and contains no comma. */
  lemma TagsAreItems(content: string, filename: string, today: string)
    requires ParseMarkdownPost(content, filename, today).Some?
    ensures var p := ParseMarkdownPost(content, filename, today).value;
      forall i :: 0 <= i < |p.tags| ==> IsItem(p.tags[i])
  {
    var (fmText, body) := SplitFrontmatter(content).value;
    var fm := FrontmatterOf(fmText);
    if "tags" in fm && fm["tags"].List? {
      TagsAreParsedItems(Split(fmText, '\n'), "tags");
    }
  }

  /** Every list value in a parsed frontmatter dictionary holds parsed items. */
  lemma TagsAreParsedItems(lines: seq<string>, k: string)
    requires k in Collect(ParseLines(lines)) && Collect(ParseLines(lines))[k].List?
    ensures var v := Collect(ParseLines(lines))[k];
      forall i :: 0 <= i < |v.items| ==> IsItem(v.items[i])
  {
    var parsed := ParseLines(lines);
    var i := PresentIsDefined(parsed, k);
    var last := LastDefinition(parsed, i, k);
    LastDefinitionWins(parsed, last, k);
  }

  /** The last entry of `parsed` that defines `k`, at or after `i`. */
  lemma {:induction false} LastDefinition(parsed: seq<Option<Entry>>, i: nat, k: string) returns (last: nat)
    requires i < |parsed| && Defines(parsed[i], k)
    ensures i <= last < |parsed| && Defines(parsed[last], k)
    ensures forall j :: last < j < |parsed| ==> !Defines(parsed[j], k)
    decreases |parsed| - i
  {
    if j :| i < j < |parsed| && Defines(parsed[j], k) {
      last := LastDefinition(parsed, j, k);
    } else {
      last := i;
    }
  }

  /* Writing a post file and reading it back. */

  /** A post file with the given frontmatter entries and body. */
  function WritePost(es: seq<Entry>, body: string): string {
    "---\n" + RenderBlock(es) + "\n---\n" + body
  }

  /** Entries that can be written one per line and read back, none of whose lines starts with `-`. */
  predicate IsWritableBlock(es: seq<Entry>) {
    && |es| >= 1
    && (forall i :: 0 <= i < |es| ==> IsWritable(es[i]))
    && (forall i :: 0 <= i < |es| ==> es[i].key == [] || es[i].key[0] != '-')
  }

  /** No newline in `s` is followed by `-`, and `s` does not start with `-`. */
  predicate NoDashLine(s: string) {
    && (s == [] || s[0] != '-')
    && (forall j :: 0 <= j < |s| - 1 && s[j] == '\n' ==> s[j + 1] != '-')
  }

  lemma {:induction false} JoinNoDashLine(lines: seq<string>)
    requires forall i :: 0 <= i < |lines| ==> '\n' !in lines[i] && (lines[i] == [] || lines[i][0] != '-')
    ensures NoDashLine(Join(lines, '\n'))
  {
    if |lines| > 1 {
      var rest := Join(lines[1..], '\n');
      JoinNoDashLine(lines[1..]);
      var s := Join(lines, '\n');
      var l := lines[0];
      assert s == l + "\n" + rest;
      forall j | 0 <= j < |s| - 1 && s[j] == '\n' ensures s[j + 1] != '-' {
        if j == |l| {
          assert s[j + 1] == rest[0];
        } else if j > |l| {
          assert s[j] == rest[j - |l| - 1] && s[j + 1] == rest[j - |l|];
        }
      }
    }
  }

  lemma RenderBlockNoDashLine(es: seq<Entry>)
    requires IsWritableBlock(es)
    ensures NoDashLine(RenderBlock(es))
    ensures RenderBlock(es) != [] && !IsSpace(RenderBlock(es)[0])
  {
    var lines := RenderLines(es);
    forall i | 0 <= i < |lines|
      ensures '\n' !in lines[i] && lines[i] != [] && lines[i][0] != '-' && !IsSpace(lines[i][0])
    {
      RenderLineShape(es[i]);
    }
    JoinNoDashLine(lines);
    JoinStartsWithFirst(lines);
  }

  /** A join starts with its first part. */
  lemma JoinStartsWithFirst(lines: seq<string>)
    requires |lines| >= 1
    ensures lines[0] <= Join(lines, '\n')
  {
    if |lines| > 1 {
      assert Join(lines, '\n') == lines[0] + ("\n" + Join(lines[1..], '\n'));
    }
  }

  /** The frontmatter of a written post is the first `\n---` after its opening line. */
  lemma SplitWritten(fm: string, body: string)
    requires fm != [] && !IsSpace(fm[0]) && NoDashLine(fm)
    requires body == [] || !IsSpace(body[0])
    ensures SplitFrontmatter("---\n" + fm + "\n---\n" + body) == Some((fm, body))
  {
    var s := "---\n" + fm + "\n---\n" + body;
    var e := 4 + |fm|;
    assert forall i :: 0 <= i < |fm| ==> s[4 + i] == fm[i];
    assert s[..4] == "---\n" && s[e..e + 5] == "\n---\n" && s[4..e] == fm && s[e + 5..] == body;
    assert DashesAt(s) && s[3] == '\n';
    // The opening run is the single newline, tried first.
    assert RunEnd(s, 4) == 4;
    assert RunEnd(s, 3) == 4;
    // No closing delimiter inside the frontmatter.
    forall k | 4 <= k < e ensures !DelimiterAt(s, k) {
      if k + 1 < e {
        assert s[k] == fm[k - 4] && s[k + 1] == fm[k - 3];
      } else {
        assert s[k + 1] == '\n';
      }
    }
    // The closing delimiter's run is its single newline.
    assert DelimiterAt(s, e);
    assert e + 5 < |s| ==> s[e + 5] == body[0];
    assert RunEnd(s, e + 5) == e + 5;
    assert RunEnd(s, e + 4) == e + 5;
    assert CloseAt(s, e) == Some(e + 5);
    FirstCloseIsFirstAt(s, 4, e);
    assert MatchFrontmatter(s) == Some(Match(4, e, e + 5));
  }

  /** `FirstClose` from `j` finds `m` when a delimiter closes at `m` and none between. */
  lemma {:induction false} FirstCloseIsFirstAt(s: string, j: nat, m: nat)
    requires j <= m && CloseAt(s, m).Some?
    requires forall k :: j <= k < m ==> !DelimiterAt(s, k)
    ensures FirstClose(s, j) == Some(m)
    decreases m - j
  {
    if j < m {
      FirstCloseIsFirstAt(s, j + 1, m);
    }
  }

  /** A written post reads back with the frontmatter dictionary of its entries and its body. */
  lemma ParseWrittenPost(es: seq<Entry>, body: string, filename: string, today: string)
    requires IsWritableBlock(es)
    requires body == [] || !IsSpace(body[0])
    ensures var r := ParseMarkdownPost(WritePost(es, body), filename, today);
      r.Some? && r.value == AssemblePost(FrontmatterOf(RenderBlock(es)), body, filename, today)
  {
    RenderBlockNoDashLine(es);
    SplitWritten(RenderBlock(es), body);
  }

  /** The last truthy `title` entry of a written post is its title. */
  lemma WrittenTitleIsKept(es: seq<Entry>, i: nat, body: string, filename: string, today: string)
    requires IsWritableBlock(es) && (body == [] || !IsSpace(body[0]))
    requires i < |es| && es[i].key == "title" && IsTruthy(es[i].value)
    requires forall j :: i < j < |es| ==> es[j].key != "title"
    ensures var r := ParseMarkdownPost(WritePost(es, body), filename, today);
      r.Some? && r.value.title == es[i].value
  {
    ParseWrittenPost(es, body, filename, today);
    BlockTitle(es, i, body, filename, today);
  }

  lemma BlockTitle(es: seq<Entry>, i: nat, body: string, filename: string, today: string)
    requires IsWritableBlock(es)
    requires i < |es| && es[i].key == "title" && IsTruthy(es[i].value)
    requires forall j :: i < j < |es| ==> es[j].key != "title"
    ensures AssemblePost(FrontmatterOf(RenderBlock(es)), body, filename, today).title == es[i].value
  {
    var fm := FrontmatterOf(RenderBlock(es));
    assert es[i].key != ProtoKey by {
      assert |es[i].key| != |ProtoKey|;
    }
    ParseRenderedBlock(es, i);
    assert FieldOr(fm, "title", Str("Untitled")) == es[i].value;
  }

  /** The last `tags` list of a written post is its tag list. */
  lemma WrittenTagsAreKept(es: seq<Entry>, i: nat, body: string, filename: string, today: string)
    requires IsWritableBlock(es) && (body == [] || !IsSpace(body[0]))
    requires i < |es| && es[i].key == "tags" && es[i].value.List?
    requires forall j :: i < j < |es| ==> es[j].key != "tags"
    ensures var r := ParseMarkdownPost(WritePost(es, body), filename, today);
      r.Some? && r.value.tags == es[i].value.items
  {
    var fm := FrontmatterOf(RenderBlock(es));
    ParseWrittenPost(es, body, filename, today);
    assert es[i].key != ProtoKey by {
      assert |es[i].key| != |ProtoKey|;
    }
    ParseRenderedBlock(es, i);
    assert AssemblePost(fm, body, filename, today).tags == es[i].value.items;
  }

  /** The frontmatter keys a post reads. */
  const PostKeys: set<string> := {"title", "excerpt", "date", "tags", "category", "author"}

  /**
   * A post file whose frontmatter sets none of the post's keys gets every default:
   * "Untitled", the excerpt generated from the body, today's date, no tags,
   * "Uncategorized" and "Anonymous".
   */
  lemma MissingFieldsDefault(es: seq<Entry>, body: string, filename: string, today: string)
    requires IsWritableBlock(es) && (body == [] || !IsSpace(body[0]))
    requires forall j :: 0 <= j < |es| ==> es[j].key !in PostKeys
    ensures var r := ParseMarkdownPost(WritePost(es, body), filename, today);
      && r.Some?
      && r.value == Post(DeriveId(filename), Str("Untitled"), Str(Excerpt.GenerateExcerpt(body)), Str(today),
                         [], Str("Uncategorized"), Str("Anonymous"), Trim(body))
  {
    ParseWrittenPost(es, body, filename, today);
    BlockDefaults(es, body, filename, today);
  }

  lemma BlockDefaults(es: seq<Entry>, body: string, filename: string, today: string)
    requires IsWritableBlock(es)
    requires forall j :: 0 <= j < |es| ==> es[j].key !in PostKeys
    ensures AssemblePost(FrontmatterOf(RenderBlock(es)), body, filename, today)
         == Post(DeriveId(filename), Str("Untitled"), Str(Excerpt.GenerateExcerpt(body)), Str(today),
                 [], Str("Uncategorized"), Str("Anonymous"), Trim(body))
  {
    var fm := FrontmatterOf(RenderBlock(es));
    forall k | k in PostKeys ensures k !in fm {
      ParseRenderedBlockKeys(es, k);
    }
  }
}

=== FILE: router.dfy ===
/**
 * The hash router of `BlogSystem` (js/main.js): `handleRouteChange`, `openPost` and
 * `showHomePage` as transitions of the window's location hash and the post on show.
 */
module Router {
  import opened Optional
  import opened Posts

  /** What the router acts on: `window.location.hash` and `this.currentPost`. */
  datatype View = View(hash: string, current: Option<Post>)

  /** `posts.find((p) => p.id === id)`: the first post with the id. */
  function FindPost(posts: seq<Post>, id: string): (r: Option<Post>)
    ensures r.Some? ==> r.value in posts && r.value.id == id
    ensures r.None? <==> forall i :: 0 <= i < |posts| ==> posts[i].id != id
  {
    if posts == [] then None
    else if posts[0].id == id then Some(posts[0])
    else FindPost(posts[1..], id)
  }

  /** `FindPost` returns the FIRST post with the id: no earlier post has it. */
  lemma {:induction false} FindPostIsFirst(posts: seq<Post>, id: string)
    requires FindPost(posts, id).Some?
    ensures exists i ::
      && 0 <= i < |posts| && posts[i] == FindPost(posts, id).value
      && (forall j :: 0 <= j < i ==> posts[j].id != id)
  {
    if posts[0].id != id {
      FindPostIsFirst(posts[1..], id);
      var i :| 0 <= i < |posts[1..]| && posts[1..][i] == FindPost(posts, id).value
        && (forall j :: 0 <= j < i ==> posts[1..][j].id != id);
      assert posts[i + 1] == FindPost(posts, id).value;
      forall j | 0 <= j < i + 1 ensures posts[j].id != id {
        if j > 0 {
          assert posts[j] == posts[1..][j - 1];
        }
      }
    } else {
      assert posts[0] == FindPost(posts, id).value;
    }
  }

  /** The hash that names a post: `#/` followed by its id. */
  function PostHash(id: string): (h: string)
    ensures |h| == |id| + 2 && h[..2] == "#/" && h[2..] == id
  {
    "#/" + id
  }

  /** `showHomePage`: the hash afterwards is empty and no post is on show. */
  function ShowHome(v: View): (r: View)
    ensures r.hash == "" && r.current.None?
  {
    View(if v.hash != "" then "" else v.hash, None)
  }

  /**
   * `openPost(id, updateHash)`: nothing happens for an unknown id; otherwise the
   * post is on show and, when asked, the hash names it.
   */
  function OpenPost(posts: seq<Post>, v: View, id: string, updateHash: bool): (r: View)
    ensures FindPost(posts, id).None? ==> r == v
    ensures FindPost(posts, id).Some? ==> r.current == FindPost(posts, id)
    ensures FindPost(posts, id).Some? ==> r.hash == (if updateHash then PostHash(id) else v.hash)
  {
    match FindPost(posts, id)
    case None => v
    case Some(p) => View(if updateHash then PostHash(id) else v.hash, Some(p))
  }

  /** The post id a hash names, when it starts with `#/`. */
  function RouteId(hash: string): (r: Option<string>)
    ensures r.Some? <==> |hash| >= 2 && hash[..2] == "#/"
    ensures r.Some? ==> hash == PostHash(r.value)
  {
    if |hash| >= 2 && hash[..2] == "#/" then Some(hash[2..]) else None
  }

  /**
   * `handleRouteChange`: a hash `#/<id>` naming a post shows it and leaves the hash
   * alone (the handler never writes the hash it is reacting to); any other hash
   * goes home.
   */
  function RouteChange(posts: seq<Post>, v: View): (r: View)
    ensures r.hash == v.hash || r.hash == ""
    ensures RouteId(v.hash).Some? && FindPost(posts, RouteId(v.hash).value).Some? ==>
      r == View(v.hash, FindPost(posts, RouteId(v.hash).value))
    ensures !(RouteId(v.hash).Some? && FindPost(posts, RouteId(v.hash).value).Some?) ==>
      r == View("", None)
  {
    match RouteId(v.hash)
    case Some(id) =>
      if FindPost(posts, id).Some? then OpenPost(posts, v, id, false) else ShowHome(v)
    case None => ShowHome(v)
  }

  /**
   * Loop prevention: once the handler has run, the hash it leaves fires a handler
   * run that changes nothing, so the hashchange events stop.
   */
  lemma RouteChangeIdempotent(posts: seq<Post>, v: View)
    ensures RouteChange(posts, RouteChange(posts, v)) == RouteChange(posts, v)
  {
    var r := RouteChange(posts, v);
    if r.hash == "" {
      assert RouteId(r.hash).None?;
    }
  }

  /**
   * The round trip: `openPost(id, true)` writes `#/<id>`, and the hashchange handler
   * it triggers keeps the same post on show, and the hash afterwards is the one it wrote.
   */
  lemma OpenThenRouteChange(posts: seq<Post>, v: View, id: string)
    requires FindPost(posts, id).Some?
    ensures var shown := OpenPost(posts, v, id, true);
      shown.hash == PostHash(id) && shown.current == FindPost(posts, id)
      && RouteChange(posts, shown) == shown
  {
    var shown := OpenPost(posts, v, id, true);
    assert RouteId(shown.hash) == Some(id);
  }
}

=== FILE: store.dfy ===
/**
 * The post store of `BlogSystem` (js/main.js): the posts that `loadPosts` keeps from
 * the fetched files, their newest-first order, and the search of `filterPosts`.
 */
module Store {
  import opened Optional
  import opened Text
  import opened Frontmatter
  import opened Posts

  /**
   * One entry of the file list after its fetch: the file name and the text of the
   * response, or None when the fetch failed or the response was not ok.
   */
  datatype Fetched = Fetched(filename: string, body: Option<string>)

  /** The post a fetched file yields, if its fetch succeeded and it has frontmatter. */
  function PostOf(f: Fetched, today: string): (r: Option<Post>)
    ensures f.body.None? ==> r.None?
  {
    match f.body
    case None => None
    case Some(content) => ParseMarkdownPost(content, f.filename, today)
  }

  /** `PostOf` for one default date, as a function value. */
  function Parser(today: string): Fetched -> Option<Post> {
    f => PostOf(f, today)
  }

  /**
   * The loop of `loadPosts` for any parser `parse`: each element in order, its
   * result pushed when there is one.
   */
  function Kept<A, B>(xs: seq<A>, parse: A -> Option<B>): (r: seq<B>)
    ensures |r| <= |xs|
  {
    if xs == [] then []
    else
      var last := parse(xs[|xs| - 1]);
      Kept(xs[..|xs| - 1], parse) + (if last.Some? then [last.value] else [])
  }

  lemma KeptStep<A, B>(xs: seq<A>, i: nat, parse: A -> Option<B>)
    requires i < |xs|
    ensures parse(xs[i]).None? ==> Kept(xs[..i + 1], parse) == Kept(xs[..i], parse)
    ensures parse(xs[i]).Some? ==> Kept(xs[..i + 1], parse) == Kept(xs[..i], parse) + [parse(xs[i]).value]
  {
    assert xs[..i + 1][..i] == xs[..i];
  }

  lemma {:induction false} KeptAppend<A, B>(a: seq<A>, b: seq<A>, parse: A -> Option<B>)
    ensures Kept(a + b, parse) == Kept(a, parse) + Kept(b, parse)
    decreases |b|
  {
    if b == [] {
      assert a + b == a;
    } else {
      var b' := b[..|b| - 1];
      assert (a + b)[..|a + b| - 1] == a + b';
      assert (a + b)[|a + b| - 1] == b[|b| - 1];
      KeptAppend(a, b', parse);
    }
  }

  lemma {:induction false} KeptMembers<A, B>(xs: seq<A>, parse: A -> Option<B>, y: B)
    ensures y in Kept(xs, parse) <==> exists i :: 0 <= i < |xs| && parse(xs[i]) == Some(y)
    decreases |xs|
  {
    if xs != [] {
      var init := xs[..|xs| - 1];
      KeptMembers(init, parse, y);
      if exists i :: 0 <= i < |xs| && parse(xs[i]) == Some(y) {
        var i :| 0 <= i < |xs| && parse(xs[i]) == Some(y);
        if i < |xs| - 1 {
          assert init[i] == xs[i];
        }
      }
      if exists i :: 0 <= i < |init| && parse(init[i]) == Some(y) {
        var i :| 0 <= i < |init| && parse(init[i]) == Some(y);
        assert xs[i] == init[i];
      }
    }
  }

  /** The posts of the fetched files, in file order; failed fetches and files without frontmatter are skipped. */
  function ParsedPosts(files: seq<Fetched>, today: string): (r: seq<Post>)
    ensures |r| <= |files|
  {
    Kept(files, Parser(today))
  }

  /** One more file: its post, if any, goes after the posts of the files before it. */
  lemma ParsedPostsStep(files: seq<Fetched>, i: nat, today: string)
    requires i < |files|
    ensures PostOf(files[i], today).None? ==> ParsedPosts(files[..i + 1], today) == ParsedPosts(files[..i], today)
    ensures PostOf(files[i], today).Some? ==>
      ParsedPosts(files[..i + 1], today) == ParsedPosts(files[..i], today) + [PostOf(files[i], today).value]
  {
    KeptStep(files, i, Parser(today));
  }

  /** Loading two runs of files one after the other gives the posts of the first run, then those of the second. */
  lemma ParsedPostsAppend(a: seq<Fetched>, b: seq<Fetched>, today: string)
    ensures ParsedPosts(a + b, today) == ParsedPosts(a, today) + ParsedPosts(b, today)
  {
    KeptAppend(a, b, Parser(today));
  }

  /** A post is loaded exactly when some file yields it; a failed file does not stop the others. */
  lemma ParsedPostsAreTheParsedFiles(files: seq<Fetched>, today: string, p: Post)
    ensures p in ParsedPosts(files, today) <==> exists i :: 0 <= i < |files| && PostOf(files[i], today) == Some(p)
  {
    KeptMembers(files, Parser(today), p);
  }

  /** The sort key of a post: `new Date(post.date)` in milliseconds, supplied by the caller. */
  function Key(p: Post, timestamp: FmValue -> int): int {
    timestamp(p.date)
  }

  /** Newest first: no post comes before a newer one. */
  ghost predicate NewestFirst(s: seq<Post>, timestamp: FmValue -> int) {
    forall i, j :: 0 <= i < j < |s| ==> Key(s[i], timestamp) >= Key(s[j], timestamp)
  }

  /** Puts `p` after every post of `s` that is at least as new, keeping equal dates in arrival order. */
  function Insert(p: Post, s: seq<Post>, timestamp: FmValue -> int): (r: seq<Post>)
    ensures |r| == |s| + 1
    ensures multiset(r) == multiset(s) + multiset{p}
  {
    if s == [] then [p]
    else if Key(s[0], timestamp) >= Key(p, timestamp) then
      assert s == [s[0]] + s[1..];
      [s[0]] + Insert(p, s[1..], timestamp)
    else [p] + s
  }

  /**
   * `posts.sort((a, b) => new Date(b.date) - new Date(a.date))`: a stable sort,
   * newest first.
   */
  function SortNewestFirst(posts: seq<Post>, timestamp: FmValue -> int): (r: seq<Post>)
    ensures multiset(r) == multiset(posts)
  {
    if posts == [] then []
    else
      assert posts == posts[..|posts| - 1] + [posts[|posts| - 1]];
      Insert(posts[|posts| - 1], SortNewestFirst(posts[..|posts| - 1], timestamp), timestamp)
  }

  lemma {:induction false} InsertElements(p: Post, s: seq<Post>, timestamp: FmValue -> int)
    ensures forall x :: x in Insert(p, s, timestamp) ==> x == p || x in s
    decreases |s|
  {
    if s != [] && Key(s[0], timestamp) >= Key(p, timestamp) {
      InsertElements(p, s[1..], timestamp);
    }
  }

  lemma {:induction false} InsertKeepsOrder(p: Post, s: seq<Post>, timestamp: FmValue -> int)
    requires NewestFirst(s, timestamp)
    ensures NewestFirst(Insert(p, s, timestamp), timestamp)
    decreases |s|
  {
    if s != [] && Key(s[0], timestamp) >= Key(p, timestamp) {
      var rest := Insert(p, s[1..], timestamp);
      InsertKeepsOrder(p, s[1..], timestamp);
      InsertElements(p, s[1..], timestamp);
      var r := Insert(p, s, timestamp);
      assert r == [s[0]] + rest;
      forall i, j | 0 <= i < j < |r| ensures Key(r[i], timestamp) >= Key(r[j], timestamp) {
        if i == 0 {
          var x := rest[j - 1];
          assert x in rest;
          if x != p {
            var k :| 0 <= k < |s[1..]| && s[1..][k] == x;
            assert s[k + 1] == x;
          }
        } else {
          assert r[i] == rest[i - 1] && r[j] == rest[j - 1];
        }
      }
    }
  }

  /** The sorted posts are newest first. */
  lemma {:induction false} SortIsNewestFirst(posts: seq<Post>, timestamp: FmValue -> int)
    ensures NewestFirst(SortNewestFirst(posts, timestamp), timestamp)
    decreases |posts|
  {
    if posts != [] {
      SortIsNewestFirst(posts[..|posts| - 1], timestamp);
      InsertKeepsOrder(posts[|posts| - 1], SortNewestFirst(posts[..|posts| - 1], timestamp), timestamp);
    }
  }

  /** The posts of `s` whose key is `t`, in order. */
  function WithKey(s: seq<Post>, timestamp: FmValue -> int, t: int): (r: seq<Post>)
    ensures |r| <= |s|
  {
    if s == [] then []
    else (if Key(s[0], timestamp) == t then [s[0]] else []) + WithKey(s[1..], timestamp, t)
  }

  lemma {:induction false} WithKeyAppend(a: seq<Post>, b: seq<Post>, timestamp: FmValue -> int, t: int)
    ensures WithKey(a + b, timestamp, t) == WithKey(a, timestamp, t) + WithKey(b, timestamp, t)
    decreases |a|
  {
    if a == [] {
      assert a + b == b;
    } else {
      var head := if Key(a[0], timestamp) == t then [a[0]] else [];
      assert (a + b)[0] == a[0] && (a + b)[1..] == a[1..] + b;
      assert WithKey(a + b, timestamp, t) == head + WithKey(a[1..] + b, timestamp, t);
      WithKeyAppend(a[1..], b, timestamp, t);
      assert WithKey(a, timestamp, t) == head + WithKey(a[1..], timestamp, t);
    }
  }

  /** Inserting into a newest-first list puts `p` after every post with its key. */
  lemma {:induction false} InsertIsStable(p: Post, s: seq<Post>, timestamp: FmValue -> int, t: int)
    requires NewestFirst(s, timestamp)
    ensures WithKey(Insert(p, s, timestamp), timestamp, t) == WithKey(s + [p], timestamp, t)
    decreases |s|
  {
    WithKeyAppend(s, [p], timestamp, t);
    if s == [] {
      assert s + [p] == [p];
    } else if Key(s[0], timestamp) >= Key(p, timestamp) {
      var rest := Insert(p, s[1..], timestamp);
      assert Insert(p, s, timestamp) == [s[0]] + rest;
      WithKeyAppend([s[0]], rest, timestamp, t);
      InsertIsStable(p, s[1..], timestamp, t);
      assert [s[0]] + (s[1..] + [p]) == s + [p];
      WithKeyAppend([s[0]], s[1..] + [p], timestamp, t);
    } else {
      assert Insert(p, s, timestamp) == [p] + s;
      WithKeyAppend([p], s, timestamp, t);
      if Key(p, timestamp) == t {
        // Every post of s is older than p, so none of them shares p's key.
        NoneWithKey(s, timestamp, t);
      }
    }
  }

  lemma {:induction false} NoneWithKey(s: seq<Post>, timestamp: FmValue -> int, t: int)
    requires forall i :: 0 <= i < |s| ==> Key(s[i], timestamp) < t
    ensures WithKey(s, timestamp, t) == []
    decreases |s|
  {
    if s != [] {
      NoneWithKey(s[1..], timestamp, t);
    }
  }

  /** The sort is stable: the posts with any one date keep their relative order. */
  lemma {:induction false} SortIsStable(posts: seq<Post>, timestamp: FmValue -> int, t: int)
    ensures WithKey(SortNewestFirst(posts, timestamp), timestamp, t) == WithKey(posts, timestamp, t)
    decreases |posts|
  {
    if posts != [] {
      var init := posts[..|posts| - 1];
      var last := posts[|posts| - 1];
      SortIsStable(init, timestamp, t);
      SortIsNewestFirst(init, timestamp);
      InsertIsStable(last, SortNewestFirst(init, timestamp), timestamp, t);
      WithKeyAppend(SortNewestFirst(init, timestamp), [last], timestamp, t);
      WithKeyAppend(init, [last], timestamp, t);
      assert init + [last] == posts;
    }
  }

  /** The posts `loadPosts` keeps: the parsed files, sorted newest first. */
  function LoadedPosts(files: seq<Fetched>, today: string, timestamp: FmValue -> int): (r: seq<Post>)
    ensures multiset(r) == multiset(ParsedPosts(files, today))
  {
    SortNewestFirst(ParsedPosts(files, today), timestamp)
  }

  // ---------------------------------------------------------------- search

  /**
   * `value.toLowerCase().includes(query)` for a frontmatter field: a list has no
   * `toLowerCase`, so the call throws, modelled as None.
   */
  function FieldHit(v: FmValue, query: string): (r: Option<bool>)
    ensures r.None? <==> v.List?
  {
    match v
    case Str(s) => Some(Contains(Lower(s), query))
    case List(_) => None
  }

  /** `post.tags.some((tag) => tag.toLowerCase().includes(query))`. */
  function AnyTagHit(tags: seq<string>, query: string): (r: bool)
    ensures r <==> exists i :: 0 <= i < |tags| && Contains(Lower(tags[i]), query)
  {
    if tags == [] then false
    else Contains(Lower(tags[0]), query) || AnyTagHit(tags[1..], query)
  }

  /** JavaScript `a || b` where evaluating an operand may throw (None): `b` is evaluated only when `a` is false. */
  function OrElse(a: Option<bool>, b: Option<bool>): (r: Option<bool>)
    ensures a == Some(true) ==> r == Some(true)
    ensures a == Some(false) ==> r == b
    ensures a.None? ==> r.None?
  {
    match a
    case None => None
    case Some(x) => if x then Some(true) else b
  }

  /**
   * The predicate of `filterPosts`: title, excerpt, content, any tag, category,
   * author, in that order. Its verdict is whether some field contains the query; it
   * throws only on a post with a list-valued field.
   */
  function Matches(p: Post, query: string): (r: Option<bool>)
    ensures r.Some? ==> r.value == Hits(p, query)
    ensures r.None? ==> !TextFields(p)
  {
    OrElse(FieldHit(p.title, query),
    OrElse(FieldHit(p.excerpt, query),
    OrElse(Some(Contains(Lower(p.content), query)),
    OrElse(Some(AnyTagHit(p.tags, query)),
    OrElse(FieldHit(p.category, query),
           FieldHit(p.author, query))))))
  }

  /** A text field contains the query. */
  predicate Hit(v: FmValue, query: string) {
    v.Str? && Contains(Lower(v.s), query)
  }

  /** Some field of the post contains the query, lower-cased. */
  predicate Hits(p: Post, query: string) {
    || Hit(p.title, query) || Hit(p.excerpt, query) || Contains(Lower(p.content), query)
    || AnyTagHit(p.tags, query) || Hit(p.category, query) || Hit(p.author, query)
  }

  /** Every field `filterPosts` lower-cases is text. */
  predicate TextFields(p: Post) {
    p.title.Str? && p.excerpt.Str? && p.category.Str? && p.author.Str?
  }

  /**
   * The search throws exactly when it reaches a list-valued field: a list title
   * always, and a list excerpt, category or author when every field searched before
   * it misses the query.
   */
  lemma SearchThrowsIff(p: Post, query: string)
    ensures Matches(p, query).None? <==>
      || p.title.List?
      || (p.excerpt.List? && !Hit(p.title, query))
      || (p.category.List? && !Hit(p.title, query) && !Hit(p.excerpt, query)
          && !Contains(Lower(p.content), query) && !AnyTagHit(p.tags, query))
      || (p.author.List? && !Hit(p.title, query) && !Hit(p.excerpt, query)
          && !Contains(Lower(p.content), query) && !AnyTagHit(p.tags, query) && !Hit(p.category, query))
  {
  }

  /** A list-valued title makes every search throw. */
  lemma ListTitleThrows(p: Post, query: string)
    requires p.title.List?
    ensures Matches(p, query).None?
  {
  }

  /**
   * `xs.filter(keep)` for a predicate that may throw (None): the elements it accepts,
   * in order; None when it throws on any element.
   */
  function FilterBy<T>(xs: seq<T>, keep: T -> Option<bool>): (r: Option<seq<T>>)
    ensures r.Some? ==> |r.value| <= |xs|
  {
    if xs == [] then Some([])
    else
      match keep(xs[0])
      case None => None
      case Some(k) =>
        match FilterBy(xs[1..], keep)
        case None => None
        case Some(rest) => Some(if k then [xs[0]] + rest else rest)
  }

  /**
   * The filter throws exactly when the predicate throws on some element; otherwise it
   * keeps, in order, exactly the elements the predicate accepts.
   */
  lemma {:induction false} FilterBySpec<T>(xs: seq<T>, keep: T -> Option<bool>)
    ensures FilterBy(xs, keep).None? <==> exists i :: 0 <= i < |xs| && keep(xs[i]).None?
    ensures FilterBy(xs, keep).Some? ==>
      && IsSubsequence(FilterBy(xs, keep).value, xs)
      && (forall x :: x in FilterBy(xs, keep).value <==> x in xs && keep(x) == Some(true))
      && forall x :: multiset(FilterBy(xs, keep).value)[x] == (if keep(x) == Some(true) then multiset(xs)[x] else 0)
    decreases |xs|
  {
    if FilterBy(xs, keep).Some? {
      FilterByCounts(xs, keep);
    }
    if xs != [] {
      var rest := xs[1..];
      FilterBySpec(rest, keep);
      if keep(xs[0]).None? {
      } else if FilterBy(rest, keep).None? {
        var i :| 0 <= i < |rest| && keep(rest[i]).None?;
        assert keep(xs[i + 1]).None?;
      } else {
        var r := FilterBy(rest, keep).value;
        forall i | 0 <= i < |xs| ensures keep(xs[i]).Some? {
          if i > 0 {
            assert xs[i] == rest[i - 1];
          }
        }
        assert xs == [xs[0]] + rest;
        if keep(xs[0]) == Some(true) {
          SubsequenceCons(xs[0], r, rest);
        } else {
          SubsequenceSkip(r, xs);
        }
      }
    }
  }

  /** Each accepted element is kept as many times as it occurs; the others not at all. */
  lemma {:induction false} FilterByCounts<T>(xs: seq<T>, keep: T -> Option<bool>)
    requires FilterBy(xs, keep).Some?
    ensures forall x :: multiset(FilterBy(xs, keep).value)[x] == (if keep(x) == Some(true) then multiset(xs)[x] else 0)
    decreases |xs|
  {
    if xs != [] {
      var rest := xs[1..];
      FilterByCounts(rest, keep);
      var r := FilterBy(rest, keep).value;
      assert xs == [xs[0]] + rest;
      assert multiset(xs) == multiset{xs[0]} + multiset(rest);
      if keep(xs[0]) == Some(true) {
        assert multiset(FilterBy(xs, keep).value) == multiset{xs[0]} + multiset(r);
      } else {
        assert FilterBy(xs, keep).value == r;
      }
    }
  }

  /** Filtering the result again with the same predicate keeps all of it. */
  lemma {:induction false} FilterByIdempotent<T>(xs: seq<T>, keep: T -> Option<bool>)
    requires FilterBy(xs, keep).Some?
    ensures FilterBy(FilterBy(xs, keep).value, keep) == FilterBy(xs, keep)
    decreases |xs|
  {
    if xs != [] {
      var rest := xs[1..];
      FilterByIdempotent(rest, keep);
      var r := FilterBy(rest, keep).value;
      if keep(xs[0]) == Some(true) {
        var s := [xs[0]] + r;
        assert s[0] == xs[0] && s[1..] == r;
      }
    }
  }

  /** The search predicate for one query, as a function value. */
  function Matcher(query: string): Post -> Option<bool> {
    p => Matches(p, query)
  }

  /** `filterPosts(query)`: every post for the empty query, otherwise the matching ones. */
  function Filtered(posts: seq<Post>, query: string): (r: Option<seq<Post>>)
    ensures query == "" ==> r == Some(posts)
    ensures r.Some? ==> |r.value| <= |posts|
  {
    if query == "" then Some(posts) else FilterBy(posts, Matcher(query))
  }

  /**
   * A non-empty query throws exactly when the predicate throws on some post; otherwise
   * it keeps, in order, exactly the posts that match.
   */
  lemma FilteredSpec(posts: seq<Post>, query: string)
    requires query != ""
    ensures Filtered(posts, query).None? <==> exists i :: 0 <= i < |posts| && Matches(posts[i], query).None?
    ensures Filtered(posts, query).Some? ==>
      && IsSubsequence(Filtered(posts, query).value, posts)
      && (forall p :: p in Filtered(posts, query).value <==> p in posts && Matches(p, query) == Some(true))
      && forall p :: multiset(Filtered(posts, query).value)[p] == (if Matches(p, query) == Some(true) then multiset(posts)[p] else 0)
  {
    FilterBySpec(posts, Matcher(query));
  }

  /** `filterPosts` applied twice with one query leaves what it left the first time. */
  lemma FilteredIdempotent(posts: seq<Post>, query: string)
    requires Filtered(posts, query).Some?
    ensures Filtered(Filtered(posts, query).value, query) == Filtered(posts, query)
  {
    if query != "" {
      FilterByIdempotent(posts, Matcher(query));
    }
  }

  /** A post whose title contains the query survives the search. */
  lemma TitleHitIsKept(posts: seq<Post>, query: string, i: nat)
    requires i < |posts| && Hit(posts[i].title, query)
    requires Filtered(posts, query).Some?
    ensures posts[i] in Filtered(posts, query).value
  {
    if query != "" {
      FilteredSpec(posts, query);
      assert Matches(posts[i], query) == Some(true);
    }
  }
}

=== FILE: text.dfy ===
/** The optional value used for lookups that can fail and for results that are null. */
module Optional {
  datatype Option<+T> = None | Some(value: T)
}

/**
 * The ECMAScript string primitives the blog code relies on: `trim`, `split`,
 * `indexOf`, `includes`, `replace` of a literal string and ASCII lower-casing.
 * Strings are sequences of characters.
 */
module Text {
  import opened Optional

  /** The characters matched by `\s` and removed by `trim()`: WhiteSpace and LineTerminator. */
  predicate IsSpace(c: char) {
    || c == '\t' || c == '\n' || c == '\U{B}' || c == '\U{C}' || c == '\r' || c == ' '
    || c == '\U{A0}' || c == '\U{1680}' || ('\U{2000}' <= c <= '\U{200A}')
    || c == '\U{2028}' || c == '\U{2029}' || c == '\U{202F}' || c == '\U{205F}'
    || c == '\U{3000}' || c == '\U{FEFF}'
  }

  /** The characters that the regular-expression `.` does not match. */
  predicate IsLineTerminator(c: char) {
    c == '\n' || c == '\r' || c == '\U{2028}' || c == '\U{2029}'
  }

  predicate IsAsciiAlnum(c: char) {
    ('a' <= c <= 'z') || ('A' <= c <= 'Z') || ('0' <= c <= '9')
  }

  /** Number of white-space characters at the start of `s`. */
  function SpaceRun(s: string): (n: nat)
    ensures n <= |s|
    ensures forall i :: 0 <= i < n ==> IsSpace(s[i])
    ensures n < |s| ==> !IsSpace(s[n])
  {
    if s != [] && IsSpace(s[0]) then 1 + SpaceRun(s[1..]) else 0
  }

  /** A string with no white space at either end. */
  predicate IsTrimmed(s: string) {
    s == [] || (!IsSpace(s[0]) && !IsSpace(s[|s| - 1]))
  }

  predicate AllSpace(s: string) {
    forall i :: 0 <= i < |s| ==> IsSpace(s[i])
  }

  /** Number of white-space characters at the end of `s`. */
  function SpaceRunBack(s: string): (n: nat)
    ensures n <= |s|
    ensures forall i :: |s| - n <= i < |s| ==> IsSpace(s[i])
    ensures n < |s| ==> !IsSpace(s[|s| - n - 1])
  {
    if s != [] && IsSpace(s[|s| - 1]) then 1 + SpaceRunBack(s[..|s| - 1]) else 0
  }

  function TrimStart(s: string): (r: string)
    ensures |r| <= |s| && r == s[|s| - |r|..]
    ensures r == [] || !IsSpace(r[0])
  {
    s[SpaceRun(s)..]
  }

  function TrimEnd(s: string): (r: string)
    ensures |r| <= |s| && r == s[..|r|]
    ensures r == [] || !IsSpace(r[|r| - 1])
  {
    s[..|s| - SpaceRunBack(s)]
  }

  /** `String.prototype.trim`: white space removed at both ends. */
  function Trim(s: string): (r: string)
    ensures IsTrimmed(r) && |r| <= |s|
    ensures IsTrimmed(s) ==> r == s
  {
    TrimEnd(TrimStart(s))
  }

  /** What `Trim` removes is white space, and what it keeps is an infix of the input. */
  lemma TrimIsInfix(s: string) returns (a: nat)
    ensures a + |Trim(s)| <= |s| && Trim(s) == s[a..a + |Trim(s)|]
    ensures AllSpace(s[..a]) && AllSpace(s[a + |Trim(s)|..])
  {
    a := SpaceRun(s);
    var t := s[a..];
    var n := SpaceRunBack(t);
    assert Trim(s) == t[..|t| - n] == s[a..|s| - n];
    forall i | a + |Trim(s)| <= i < |s| ensures IsSpace(s[i]) {
      assert s[i] == t[i - a];
    }
  }

  /** Trimming never introduces a character. */
  lemma TrimKeepsAbsent(s: string, c: char)
    requires c !in s
    ensures c !in Trim(s)
  {
    var r := Trim(s);
    var a := TrimIsInfix(s);
    assert forall k :: 0 <= k < |r| ==> r[k] == s[a + k];
  }

  /** Number of occurrences of the character `c` in `s`. */
  function Count(s: string, c: char): nat {
    if s == [] then 0 else (if s[0] == c then 1 else 0) + Count(s[1..], c)
  }

  /** `s.split(c)` for a one-character separator: at least one part, none containing `c`. */
  function Split(s: string, c: char): (r: seq<string>)
    ensures |r| == Count(s, c) + 1
    ensures forall i :: 0 <= i < |r| ==> c !in r[i]
  {
    if s == [] then [""]
    else if s[0] == c then [""] + Split(s[1..], c)
    else
      var rest := Split(s[1..], c);
      [[s[0]] + rest[0]] + rest[1..]
  }

  /** `parts.join(c)`. */
  function Join(parts: seq<string>, c: char): string {
    if parts == [] then ""
    else if |parts| == 1 then parts[0]
    else parts[0] + [c] + Join(parts[1..], c)
  }

  lemma {:induction false} JoinSplit(s: string, c: char)
    ensures Join(Split(s, c), c) == s
  {
    if s == [] {
    } else if s[0] == c {
      JoinSplit(s[1..], c);
      assert Split(s, c) == [""] + Split(s[1..], c);
    } else {
      var rest := Split(s[1..], c);
      JoinSplit(s[1..], c);
      if |rest| == 1 {
      } else {
        assert Join(rest, c) == rest[0] + [c] + Join(rest[1..], c);
        assert Split(s, c)[1..] == rest[1..];
      }
    }
  }

  lemma {:induction false} SplitJoin(parts: seq<string>, c: char)
    requires |parts| >= 1
    requires forall i :: 0 <= i < |parts| ==> c !in parts[i]
    ensures Split(Join(parts, c), c) == parts
  {
    if |parts| == 1 {
      SplitFree(parts[0], c);
    } else {
      SplitJoin(parts[1..], c);
      SplitPrefix(parts[0], Join(parts[1..], c), c);
      assert [parts[0]] + parts[1..] == parts;
    }
  }

  /** Splitting a string that has no separator gives the string itself. */
  lemma {:induction false} SplitFree(s: string, c: char)
    requires c !in s
    ensures Split(s, c) == [s]
  {
    if s != [] {
      SplitFree(s[1..], c);
      assert [s[0]] + s[1..] == s;
    }
  }

  lemma {:induction false} SplitPrefix(a: string, b: string, c: char)
    requires c !in a
    ensures Split(a + [c] + b, c) == [a] + Split(b, c)
  {
    if a == [] {
      assert a + [c] + b == [c] + b;
      assert ([c] + b)[1..] == b;
    } else {
      SplitPrefix(a[1..], b, c);
      assert (a + [c] + b)[1..] == a[1..] + [c] + b;
      assert [a[0]] + a[1..] == a;
    }
  }

  /** `d` occurs in `s` starting at index `j`. */
  predicate OccursAt(s: string, d: string, j: int) {
    0 <= j && j + |d| <= |s| && s[j..j + |d|] == d
  }

  /** The first index at which `d` occurs in `s`, as `indexOf` finds it. */
  function Find(s: string, d: string): (r: Option<nat>)
    ensures r.Some? ==> OccursAt(s, d, r.value)
    ensures r.Some? ==> forall j :: 0 <= j < r.value ==> !OccursAt(s, d, j)
    ensures r.None? ==> forall j :: 0 <= j <= |s| ==> !OccursAt(s, d, j)
  {
    if |d| <= |s| && s[..|d|] == d then Some(0)
    else if s == [] then None
    else match Find(s[1..], d)
      case None =>
        assert forall j :: 1 <= j <= |s| ==> OccursAt(s, d, j) == OccursAt(s[1..], d, j - 1);
        None
      case Some(j) =>
        assert forall k :: 1 <= k <= j + 1 ==> OccursAt(s, d, k) == OccursAt(s[1..], d, k - 1);
        Some(j + 1)
  }

  /** `s.indexOf(c)`: the first index of `c`, or -1. */
  function IndexOf(s: string, c: char): (r: int)
    ensures -1 <= r < |s|
    ensures r == -1 <==> c !in s
    ensures r >= 0 ==> s[r] == c && c !in s[..r]
  {
    match Find(s, [c])
    case None =>
      forall j | 0 <= j < |s| ensures s[j] != c {
        assert !OccursAt(s, [c], j) && s[j..j + 1] == [s[j]];
      }
      -1
    case Some(i) =>
      forall j | 0 <= j < i ensures s[..i][j] != c {
        assert !OccursAt(s, [c], j) && s[j..j + 1] == [s[j]];
      }
      assert s[i..i + 1][0] == s[i];
      i
  }

  /** `s.includes(q)`. */
  predicate Contains(s: string, q: string) {
    Find(s, q).Some?
  }

  /** `s.replace(d, "")` with a literal pattern: only the FIRST occurrence is removed. */
  function RemoveFirst(s: string, d: string): (r: string)
    ensures Find(s, d).None? ==> r == s
    ensures Find(s, d).Some? ==> |r| == |s| - |d|
    ensures Find(s, d).Some? ==> var i := Find(s, d).value; s == r[..i] + d + r[i..]
  {
    match Find(s, d)
    case None => s
    case Some(i) =>
      var r := s[..i] + s[i + |d|..];
      assert r[..i] == s[..i] && r[i..] == s[i + |d|..];
      r
  }

  function LowerChar(c: char): (r: char)
    ensures 'A' <= c <= 'Z' ==> 'a' <= r <= 'z' && r as int == c as int + 32
    ensures !('A' <= c <= 'Z') ==> r == c
  {
    if 'A' <= c <= 'Z' then (c as int + 32) as char else c
  }

  /** `toLowerCase` restricted to ASCII letters. */
  function Lower(s: string): (r: string)
    ensures |r| == |s|
    ensures forall i :: 0 <= i < |s| ==> r[i] == LowerChar(s[i])
  {
    seq(|s|, i requires 0 <= i < |s| => LowerChar(s[i]))
  }

  /** `small` is `big` with some elements deleted, the rest kept in order. */
  ghost predicate IsSubsequence<T>(small: seq<T>, big: seq<T>)
    decreases |big|
  {
    if small == [] then true
    else if big == [] then false
    else if small[0] == big[0] then IsSubsequence(small[1..], big[1..])
    else IsSubsequence(small, big[1..])
  }

  lemma {:induction false} SubsequenceRefl<T>(s: seq<T>)
    ensures IsSubsequence(s, s)
  {
    if s != [] {
      SubsequenceRefl(s[1..]);
    }
  }

  /** Dropping a prefix of the larger sequence keeps a subsequence a subsequence of the whole. */
  lemma {:induction false} SubsequenceOfSuffix<T>(small: seq<T>, big: seq<T>, n: nat)
    requires n <= |big|
    requires IsSubsequence(small, big[n..])
    ensures IsSubsequence(small, big)
  {
    if n > 0 {
      SubsequenceOfSuffix(small, big[1..], n - 1);
      assert big[1..][n - 1..] == big[n..];
      SubsequenceSkip(small, big);
    }
  }

  lemma {:induction false} SubsequenceSkip<T>(small: seq<T>, big: seq<T>)
    requires big != []
    requires IsSubsequence(small, big[1..])
    ensures IsSubsequence(small, big)
    decreases |big|, |small|
  {
    if small != [] && small[0] == big[0] {
      SubsequenceDrop(small, big[1..]);
    }
  }

  /** Dropping the head of a non-empty subsequence keeps it a subsequence. */
  lemma {:induction false} SubsequenceDrop<T>(small: seq<T>, big: seq<T>)
    requires small != []
    requires IsSubsequence(small, big)
    ensures IsSubsequence(small[1..], big)
    decreases |big|, |small|
  {
    if small[0] == big[0] {
      SubsequenceSkip(small[1..], big);
    } else {
      SubsequenceDrop(small, big[1..]);
      SubsequenceSkip(small[1..], big);
    }
  }

  /** A kept element in front of a subsequence of the rest. */
  lemma SubsequenceCons<T>(x: T, small: seq<T>, big: seq<T>)
    requires IsSubsequence(small, big)
    ensures IsSubsequence([x] + small, [x] + big)
  {
    assert ([x] + small)[1..] == small;
    assert ([x] + big)[1..] == big;
  }

  lemma {:induction false} SubsequenceTrans<T>(a: seq<T>, b: seq<T>, c: seq<T>)
    requires IsSubsequence(a, b) && IsSubsequence(b, c)
    ensures IsSubsequence(a, c)
    decreases |c|
  {
    if a != [] {
      if b[0] == c[0] {
        if a[0] == b[0] {
          SubsequenceTrans(a[1..], b[1..], c[1..]);
        } else {
          SubsequenceTrans(a, b[1..], c[1..]);
        }
      } else {
        SubsequenceTrans(a, b, c[1..]);
        SubsequenceSkip(a, c);
      }
    }
  }

  lemma {:induction false} PrefixIsSubsequence<T>(s: seq<T>, k: nat)
    requires k <= |s|
    ensures IsSubsequence(s[..k], s)
  {
    if k > 0 {
      PrefixIsSubsequence(s[1..], k - 1);
      assert s[..k][1..] == s[1..][..k - 1];
    }
  }

  /** A contiguous slice is a subsequence. */
  lemma InfixIsSubsequence<T>(s: seq<T>, i: nat, j: nat)
    requires i <= j <= |s|
    ensures IsSubsequence(s[i..j], s)
  {
    PrefixIsSubsequence(s[i..], j - i);
    assert s[i..][..j - i] == s[i..j];
    SubsequenceOfSuffix(s[i..j], s, i);
  }

  /** What `Trim` keeps is a subsequence of its input. */
  lemma TrimIsSubsequence(s: string)
    ensures IsSubsequence(Trim(s), s)
  {
    var a := TrimIsInfix(s);
    InfixIsSubsequence(s, a, a + |Trim(s)|);
  }
}
